=== FILE: README.md ===
# Local LLM action server: the dispatch pipeline in Dafny

This project models how the server turns untrusted language-model output into a privileged side effect, and proves properties of that model.

The pipeline has four steps:

- **Gateway.** The completion text is stripped of whitespace and the first fenced block is cut out (`model_client.py`).
- **Dispatch.** The parsed value goes through a fixed sequence of checks (`main.py` `invoke`):
  - it is a dict;
  - it has a truthy `tool`;
  - the tool is registered;
  - its arguments satisfy the tool's JSON schema.
- **Tools.** If every check passes, the registered handler runs: `update_file` or `create_user` (`tools.py`).
- **Audit.** A successful call produces an audit record.

Modules, one per file:

- `Results`: `Option` and `Result`.
- `Json`: the decoded JSON values, plus Python truthiness and hashability.
- `Strings`:
  - `str.strip`, `lstrip`, `startswith`, `split` and `join`;
  - joining the pieces of a split gives the text back, for any non-empty separator;
  - splitting a join gives the pieces back when the separator is one character that no piece contains.
- `Paths`:
  - `posixpath.normpath`, `join` and `abspath`, with the current directory as a parameter;
  - what the workspace's character-prefix test means for normalised component lists.
- `Schemas`:
  - the `type` / `properties` / `required` / `items` subset of JSON Schema 2020-12 (section 6.1.1 and 6.5.3 of Validation, sections 10.3.2.1 and 10.3.1.2 of Core);
  - a validator that lists every violation, checked against an independent `Conforms` predicate;
  - the two tool schemas.
- `Tools`:
  - the registry and the `register` decorator;
  - `update_file` over a filesystem map from normalised paths to nodes;
  - `create_user` over the users map;
  - binding the argument dict to the handler's keyword parameters.
- `Gateway`: the post-processing in `ask_model`, with `json.loads` as an oracle `string -> Option<Json>`.
- `Dispatch`:
  - `invoke` as a function from the parsed value, the user id, the environment, the state, the request id and the clock reading to a response;
  - the response holds the outcome, the new state and the list of handler calls made.

Some behaviour of the code that a reader might not expect:

- **Workspace check.** The check is a character prefix on the normalised path, not a component-wise descendant test. A sibling directory whose name extends the workspace's name passes (`Tools.SiblingDirectoryAccepted`).
- **Writes.** A file is written directly, not through a temporary file and a rename.
- **Usernames.** They are not checked against any pattern.
- **Model output.** No brace-scanning extraction is done. Output that does not open with a fence fails on an unbound local variable before it reaches the parser (`Gateway.UnfencedFails`). The fence's language tag is kept (`Gateway.LanguageTagKept`).
- **Failed calls.** Only a successful call builds an audit record.

## Model

| member | source | states |
|---|---|---|
| Json.Truthy | main.py:28 | Python truthiness of a decoded value; what it decides is stated by Dispatch.MissingToolRejected |
| Json.Hashable | main.py:31 | lists and dicts are unhashable; the consequence is stated by Dispatch.UnhashableToolUncaught and Dispatch.Invoke |
| Strings.LeadingSpaces | model_client.py:38 | the count is the length of the longest all-whitespace prefix: everything before it is whitespace and the next character is not |
| Strings.TrailingSpaces | model_client.py:38 | the count is the length of the longest all-whitespace suffix |
| Strings.Strip | model_client.py:38 | the result has no whitespace at either end, is an infix of the input, and only whitespace lies before and after it |
| Strings.IsSpace | model_client.py:38-44 | the characters `str.isspace()` accepts, which `strip()` with no argument removes: ASCII whitespace U+0009..U+000D and U+0020, the separators U+001C..U+001F, U+0085, U+00A0, U+1680, U+2000..U+200A, U+2028, U+2029, U+202F, U+205F and U+3000; what it means for stripping is stated by Strings.Strip and Strings.StripRecovers |
| Strings.StripRecovers | model_client.py:38 | stripping any all-whitespace padding off a trimmed text gives that text back |
| Strings.StartsWith | tools.py:23 | `startswith`: the prefix test; what it admits for normalised paths is stated by Paths.JoinPrefix and Paths.PrefixCheckExact |
| Strings.LStrip | tools.py:22 | `lstrip('/')` removes exactly the leading run of the character: the result is a suffix, everything removed was that character, and the result does not start with it |
| Strings.Find | model_client.py:42 | the index returned is an occurrence of the separator with none before it; None means no occurrence at all |
| Strings.Split | model_client.py:42 | `split` gives at least one piece, no piece contains the separator, joining the pieces with the separator rebuilds the input, and every cut is at the leftmost occurrence of the separator in what remains (so the first piece is `FirstPiece`, see Strings.SplitHead) |
| Strings.Join | model_client.py:42 | `sep.join(parts)`, the inverse of `split`: Strings.Split states that joining the pieces rebuilds the text, Strings.SplitJoin that splitting a join gives the pieces back; it is also normpath's `'/'.join` rebuild, re-split by Paths.NormPartsOfRender |
| Strings.SplitHead | model_client.py:42 | the first piece of a split is the text before the leftmost separator, or all of it |
| Strings.SplitJoin | model_client.py:42 | splitting a join of separator-free pieces on a one-character separator gives back the same pieces |
| Strings.SplitAfterLeadingSeparator | model_client.py:40-43 | a text that starts with the fence splits into at least two parts: the first is empty and the second is the text up to the next fence |
| Strings.FirstPiece | model_client.py:42-44 | the piece is a separator-free prefix that ends either at the end of the text or where the separator starts |
| Paths.InitialSlashes | tools.py:21-22 | normpath keeps at most two leading slashes, and some exactly when the path is absolute; it keeps two exactly when the path starts with exactly two, and three or more fold into one |
| Paths.NormPath | tools.py:21-22 | `normpath` never returns the empty string and keeps an absolute path absolute; its shape is stated by Paths.NormalizedShape and its idempotence by Paths.NormPathIdempotent |
| Paths.PosixJoin | tools.py:22 | `join(a, b)` returns an absolute `b` as is; otherwise the result starts with `a` and ends with `b`, at most one character lies between them, and the character just before `b` is a slash when `a` is non-empty |
| Paths.AbsPath | tools.py:21-22 | `abspath` returns an absolute path when the current directory is absolute or the path already is |
| Paths.IsAbs | tools.py:21-22 | `isabs(p)`, that is `p.startswith('/')`, the test `posixpath.join` and `abspath` branch on: Paths.PosixJoin states that an absolute `b` replaces `a`, Paths.AbsPath that the result is absolute, Paths.InitialSlashes that normpath keeps a leading slash exactly when the path is absolute |
| Paths.Step | tools.py:21-22 | one turn of normpath's loop over the components; its effect is stated through Paths.Fold's lemmas |
| Paths.Fold | tools.py:21-22 | normpath's loop over the components; stated by Paths.FoldAppend, Paths.FoldCanonical and Paths.FoldKeepsCanonical |
| Paths.FoldAppend | tools.py:21-22 | the loop over two runs of components is the loop over the first, continued over the second |
| Paths.FoldCanonical | tools.py:21-22 | in an absolute path, real components (no empty, `.` or `..`) are only appended |
| Paths.FoldKeepsCanonical | tools.py:21-22 | in an absolute path, the loop started from real components over slash-free components leaves only real components |
| Paths.NormParts | tools.py:21-22 | normpath's split into leading slashes and folded components; stated by Paths.NormalizedShape and Paths.NormPartsOfRender |
| Paths.Render | tools.py:21-22 | normpath's rebuild: the slashes followed by the components joined with `/`; stated by Paths.NormPartsOfRender |
| Paths.NormalizedShape | tools.py:21-22 | `normpath` of an absolute path has one or two leading slashes and only real components (no empty, `.` or `..`), and its text is those slashes followed by the joined components |
| Paths.NormPartsOfRender | tools.py:21-22 | normalising a rendered canonical path recovers its slashes and components |
| Paths.NormPathIdempotent | tools.py:21-22 | normalising an absolute path twice gives the same text as normalising it once |
| Paths.ResolveAgainstBase | tools.py:22 | joining a relative path onto a normalised base and normalising runs normpath's `..` folding over the relative components, starting from the base's components |
| Paths.JoinPrefix | tools.py:23 | for canonical component lists, the joined text starts with the base's joined text exactly when the base is a component prefix, or a sibling shares all but the last component and its last name extends the base's |
| Paths.PrefixCheckExact | tools.py:23 | the same equivalence for rendered paths with equal leading slashes |
| Schemas.HasType | schemas.py:4-18 | the `type` keyword for object, array, string and boolean; stated by Schemas.ConformsString, Schemas.ConformsBoolean and Schemas.ConformsStringArray |
| Schemas.Conforms | main.py:36-40 | the reference meaning of the four keywords, independent of the validator; the two are tied together by Schemas.ErrorsEmptyIffConforms |
| Schemas.Errors | main.py:36-40 | jsonschema's `validate`: every violation, keyword by keyword; Schemas.ErrorsEmptyIffConforms states that it lists none exactly on conforming instances |
| Schemas.RequiredErrorsEmpty | schemas.py:10 | `required` reports nothing exactly when every listed name is a key of the object |
| Schemas.PropertyErrorsEmpty | schemas.py:5-9 | `properties` reports nothing exactly when every listed property that is present satisfies its subschema |
| Schemas.ItemErrorsEmpty | schemas.py:16-19 | `items` reports nothing exactly when every element satisfies the item schema |
| Schemas.ErrorsEmptyIffConforms | main.py:36-40 | the validator lists no violation if and only if the instance conforms to the schema under the reference semantics of the four keywords |
| Schemas.Under | main.py:38-40 | a nested violation keeps its problem and gains the enclosing key or index at the front of its location |
| Schemas.ConformsString | schemas.py:6 | `{'type': 'string'}` accepts exactly strings |
| Schemas.ConformsBoolean | schemas.py:8 | `{'type': 'boolean'}` accepts exactly booleans |
| Schemas.ConformsStringArray | schemas.py:16-19 | the `roles` schema accepts exactly arrays whose every element is a string |
| Schemas.UpdateFileArgsValid | schemas.py:3-11 | `update_file` arguments validate if and only if they are an object with string `path` and `content`, and with a boolean `overwrite` if one is present |
| Schemas.CreateUserArgsValid | schemas.py:12-22 | `create_user` arguments validate if and only if they are an object with a string `username` and an array of strings `roles` |
| Schemas.NonObjectArgsRejected | schemas.py:3-13 | any non-object fails both schemas, with the single violation "not an object" at the top |
| Schemas.ExtraKeysIgnored | schemas.py:2-23 | with no `additionalProperties`, adding a key neither schema names does not change whether the arguments validate |
| Schemas.EmptyRolesValid | schemas.py:16-19 | an empty `roles` array validates, since `items` sets no minimum length |
| Tools.Parameters | tools.py:18-38 | the handlers' keyword parameters, which decide `**args` binding; stated by Tools.Run |
| Tools.RequiredParameters | tools.py:18-38 | the handlers' parameters without a default; stated by Tools.Run |
| Tools.Register | tools.py:10-14 | `register(name)` binds `name` to the function and leaves every other entry as it was |
| Tools.RegistryContents | tools.py:7-37 | after the module loads, the registry holds exactly `update_file` and `create_user`, bound to their handlers |
| Tools.UpdateFileHandler | tools.py:18-34 | a target that fails the prefix check raises 'path outside workspace'; a target containing NUL raises ValueError 'embedded null byte' (it does not exist for `os.path.exists`, and `open` refuses it); an existing target without a truthy `overwrite` raises 'file exists and overwrite is false'; on any error nothing changes; on success only the target changes, it holds `content`, the users are untouched, and the result is `{path, status: "written"}` |
| Tools.WorkspaceDir | tools.py:20 | `os.environ.get('WORKSPACE_DIR', '/srv/llm_workspace')`; the default case is stated by Tools.DefaultBase |
| Tools.WorkspaceBase | tools.py:21 | `abs_base` is absolute when the current directory is; its shape is stated by Tools.TargetShape |
| Tools.Target | tools.py:22 | `joined` is absolute when the current directory is; its components are stated by Tools.TargetShape and Paths.ResolveAgainstBase |
| Tools.BaseInputAbsolute | tools.py:20-21 | with an absolute current directory, what `abspath` normalises for the workspace is absolute |
| Tools.TargetShape | tools.py:20-22 | the workspace and the target are each the workspace's leading slashes followed by canonical components, and the target's components are normpath's folding of the stripped path onto the workspace's |
| Tools.UpdateFileConfinement | tools.py:20-24 | 'path outside workspace' is raised if and only if the target is neither the workspace, nor below it, nor a sibling whose last name extends the workspace's last name |
| Tools.FoldWithoutParentSteps | tools.py:22 | without `..` components, the folding only appends to the components it starts from |
| Tools.PathWithoutParentStepsAccepted | tools.py:22-24 | a path without `..` components never raises 'path outside workspace' |
| Tools.LStripSlashes | tools.py:22 | `lstrip('/')` gives the same result for a path with any number of extra leading slashes |
| Tools.AbsolutePathRebased | tools.py:22 | leading slashes make no difference: `/p` lands where `p` does, under the workspace, and the handler treats both alike |
| Tools.DefaultBase | tools.py:20-21 | with `WORKSPACE_DIR` unset, the workspace is `/srv/llm_workspace`, with components `srv` and `llm_workspace` |
| Tools.DefaultTarget | tools.py:22 | under the default workspace, the target is the slash-rendered folding of the path's components onto `srv/llm_workspace` |
| Tools.SiblingDirectoryAccepted | tools.py:22-34 | `../llm_workspace_x/notes.txt` resolves to `/srv/llm_workspace_x/notes.txt`, which is not below the workspace, yet passes the check and is written |
| Tools.EscapeRejected | tools.py:22-24 | `../../etc/passwd` resolves to `/etc/passwd` and is refused with 'path outside workspace' without any change |
| Tools.NulNameRejected | tools.py:27-32 | `a\0b` resolves to `/srv/llm_workspace/a\0b`, passes the prefix check, and is refused with ValueError 'embedded null byte' before anything is written, whatever `overwrite` says |
| Tools.CreateUserHandler | tools.py:37-58 | an existing username raises 'user exists' and changes nothing; otherwise exactly `username -> {roles}` is added, other users and the files are untouched, and the result is `{username, roles}` |
| Tools.LoadUsers | tools.py:43-47 | the users file as read, a missing file reading as `{}`; stated by Tools.FirstUserInMissingFile |
| Tools.FirstUserInMissingFile | tools.py:43-47 | a missing users file counts as empty: the first user created is the only entry |
| Tools.CreateUserTwice | tools.py:50-54 | creating the same username twice fails the second time and keeps the first record |
| Tools.Run | main.py:43-45 | `tool_fn(**args)`: a non-mapping raises TypeError; a key that is not a parameter raises TypeError naming one such key; missing required parameters raise TypeError naming all of them; a call that returns had only known keys and every required one; a failure in binding leaves the state as it was |
| Gateway.ExtractText | model_client.py:38-44 | extraction succeeds exactly when the stripped text starts with a fence, and otherwise fails on the unbound `parts`; the text is the stripped piece between the first fence and the next one, with no whitespace at either end |
| Gateway.AskModel | model_client.py:47-51 | a value is returned exactly when extraction succeeds and the oracle parses the text, and it is the oracle's value unchanged; a parse failure carries the extracted text; unfenced text fails before parsing |
| Gateway.StripSplits | model_client.py:38 | a text is its leading whitespace, then its stripped form, then its trailing whitespace |
| Gateway.StripPadding | model_client.py:38 | adding whitespace around a text does not change its stripped form |
| Gateway.PaddingIgnored | model_client.py:38-44 | adding whitespace around the completion does not change the extracted text or the error |
| Gateway.FirstPieceAt | model_client.py:42-44 | the first piece ends at the leftmost occurrence of the separator |
| Gateway.FirstPieceBeforeFence | model_client.py:42-44 | with no backtick in `b`, the first piece of `b + fence + rest` is `b` |
| Gateway.FirstPieceNoFence | model_client.py:42-44 | with no backtick in `b`, the first piece of `b` is all of `b` |
| Gateway.FencedBlockExtracted | model_client.py:38-44 | a fenced block inside any whitespace gives its stripped body, and text after the closing fence is dropped |
| Gateway.UnclosedFenceExtracted | model_client.py:38-44 | an opening fence with no closing one gives the stripped rest of the text |
| Gateway.StripKeepsPrefix | model_client.py:44 | stripping keeps a prefix that starts and ends with non-whitespace |
| Gateway.LanguageTagKept | model_client.py:41-44 | for a block fenced as ```` ```json ````, the text given to the parser still starts with `json` |
| Gateway.FourBackticksSplit | model_client.py:42 | four backticks split on the fence at the leftmost occurrence: `["", "`"]`, not `["`", ""]` |
| Gateway.UnfencedFails | model_client.py:40-43 | output whose stripped text does not start with a backtick, even bare JSON, fails with the unbound-variable error whatever the parser would say |
| Dispatch.Admitted | main.py:22-40 | every check before the call passes: a dict, a registered string `tool`, conforming arguments; Dispatch.Invoke states that the handler is called exactly on admitted requests |
| Dispatch.Invoke | main.py:17-60 | at most one handler call, made exactly when the value is a dict naming a registered tool whose arguments conform; the state changes only on success; for an admitted request, a handler error is a 500 carrying it and a handler result is a success whose audit has the given id, user id, `tool`, `args`, that result and `now + "Z"`; other refusals are 400; the request escapes uncaught exactly when `tool` is a non-empty list or dict |
| Dispatch.ToolOf | main.py:25 | `raw.get('tool')`; used by Dispatch.Invoke and stated by Dispatch.MissingToolRejected |
| Dispatch.ArgsOf | main.py:26 | `raw.get('args', {})`; the `{}` default is stated by Dispatch.AbsentArgsRejected |
| Dispatch.Serve | main.py:17-60 | end to end from the completion text: at most one handler call, made exactly when `ask_model` returns a value that `invoke` admits, and only for a completion that opens with a fence after stripping; the state changes only on success; a success carries the request id, the user and the time; an unfenced completion escapes with no call and no change; the request escapes uncaught exactly when `ask_model` fails or the tool is truthy and unhashable |
| Dispatch.SchemasCoverRegistry | schemas.py:2-23 | the schema table and the registry have the same keys, and every schema is a non-empty dict, so the `if schema:` branch always validates |
| Dispatch.NotStructuredRejected | main.py:22-23 | a non-dict gives 400 "not structured", with no call and no change |
| Dispatch.MissingToolRejected | main.py:25-29 | a missing or falsy `tool`, the empty string included, gives 400 "missing tool" before any registry lookup |
| Dispatch.UnhashableToolUncaught | main.py:31 | a non-empty list or dict as `tool` raises TypeError in the membership test, which escapes `invoke` |
| Dispatch.UnknownToolRejected | main.py:31-32 | a hashable tool not in the registry gives 400 "unknown tool", with no validation and no call |
| Dispatch.InvalidArgsRejected | main.py:35-40 | arguments that do not conform give 400 listing a non-empty set of violations, with no call and no change |
| Dispatch.AbsentArgsRejected | main.py:26 | absent `args` default to `{}`, which lacks the required parameters, so the request gives 400 with no call |
| Dispatch.HandlerFailureReported | main.py:43-47 | an exception from the handler gives a 500 whose detail is that exception, with the state unchanged and exactly one call |
| Dispatch.UpdateFileRunsHandler | main.py:43-45 | validated `update_file` arguments with no extra keys reach the handler unchanged, with `overwrite` defaulting to false |
| Dispatch.CreateUserRunsHandler | main.py:43-45 | validated `create_user` arguments with no extra keys reach the handler unchanged |
| Dispatch.AdmittedArgumentsTyped | main.py:35-45 | for an admitted request the handler run never fails with `UnvalidatedArgument`: arguments that pass validation always give the handler strings where it works on strings |
| Dispatch.RunRejectsUnknownKeyword | main.py:45 | a key that is not a handler parameter makes the call raise a TypeError naming an unexpected key, that key when it is the only one, with the state unchanged |
| Dispatch.ExtraKeyFailsAtCall | main.py:35-47 | an extra argument key passes validation, then the call raises TypeError naming an unexpected key (the added one when the rest are parameters) and the request ends in 500 with the state unchanged |
| Dispatch.UnfencedOutputUncaught | main.py:19 | unfenced model output makes the whole request fail inside `ask_model`, with no call and no change |

## Left out

- The language-model call (`llm(...)`, `out['choices'][0]['text']`) and the prompt template: the completion text is an input.
- `json.loads`: an oracle parameter, because JSON text syntax is not modelled. `json.load` and `json.dump` of the users file are not modelled either: the users file is kept as a map.
- The parse error's `repr(text)` rendering: the model carries the text itself.
- jsonschema's `best_match` message: `InvalidArgs` carries the whole violation list instead of one message string.
- Dispatch.Invoke: the "unknown tool: ..." and `str(e)` detail strings are kept as structured values, not rendered text.
- FastAPI and pydantic: the request body is the user id, and the response is an outcome with a status number.
- Filesystem effects other than the map update:
  - `makedirs`, and its failure when a parent is a file. The directories `makedirs` would create never enter the file map, so a later `update_file` naming one of them writes a new file in the model, where the source raises 'file exists and overwrite is false' or IsADirectoryError;
  - OS errors other than opening a directory for writing;
  - encodings;
  - symlinks (`abspath` is lexical anyway).
- The users file lives in the workspace, but the model keeps it in its own map. So an `update_file` to `users.json` does not alter the user registry in the model.
- A malformed or non-dict users file: `LoadUsers` reads a missing file as empty and takes any stored map as is.
- `uuid4` and `utcnow`: the request id and the ISO time text are parameters.
- `WORKSPACE_DIR` and the current directory: both are fields of `Env`. An environment value cannot contain NUL; `Env` does not exclude it. For `update_file` the NUL branch covers such a workspace anyway; `create_user` does not depend on the directory in the model.
- Tools.TargetShape and the confinement lemmas: they assume an absolute current directory, which `os.getcwd()` always returns.
- The unlocked read-modify-write of the users file under concurrent requests.
- Dictionary key order: objects are maps. The audit record's and the result's field order is not modelled.
- Floats are exact reals, because only their type and truthiness are observed.
- Tools.Run: with several unexpected keys, Python names the first in the argument object's order. A `Json` object is a map and does not record that order, so the model names the least key and its contract promises only that the named key is one of the unexpected ones.
- Tools.Run: a non-string `path`, `content` or `username` ends in `UnvalidatedArgument` with no change. The handlers would behave otherwise: `path.lstrip` raises AttributeError; `open` creates or empties the file before `f.write` raises TypeError on `content`; a scalar `username` is stored. Validation rules all three out before any call (Dispatch.AdmittedArgumentsTyped), so `invoke` never reaches them.
- Schemas.Errors: the order of violations within one keyword follows the schema's listing. Which violation jsonschema reports first is not modelled.

=== FILE: dispatch.dfy ===
/**
 * The `/invoke` endpoint: the parsed model output is checked step by step
 * (a dict, a truthy `tool`, a registered tool, arguments that satisfy the
 * tool's schema), the handler is called, and an audit record is built. The
 * request id and the clock reading are parameters.
 */
module Dispatch {
  import opened Results
  import opened Json
  import opened Schemas
  import opened Tools
  import opened Gateway
  import opened Strings

  /** The `detail` of an HTTPException. */
  datatype Detail =
      /** "model did not return structured JSON" */
    | NotStructured
      /** "model response missing 'tool'" */
    | MissingTool
      /** "unknown tool: {tool}" */
    | UnknownTool(tool: Json)
      /** "invalid args: {message}" */
    | InvalidArgs(violations: seq<Violation>)
      /** `str(e)` of the exception the handler raised */
    | ToolFailed(error: HandlerError)

  /** Exceptions that escape `invoke` unhandled (the framework answers 500). */
  datatype Fault =
    | AskFailed(error: AskError)
      /** `tool not in TOOL_REGISTRY` on a list or dict raises TypeError. */
    | UnhashableTool(tool: Json)

  /** The audit record of a successful call. */
  datatype Audit = Audit(id: string, userId: string, tool: Json, args: Json, result: Json, time: string)

  datatype Outcome =
      /** `{"ok": True, "audit": audit}` */
    | Success(audit: Audit)
    | HttpError(status: int, detail: Detail)
    | Uncaught(fault: Fault)

  /** What a request returns, the state it leaves behind, and the handler
      calls it made (tool name and argument dict). */
  datatype Response = Response(outcome: Outcome, state: State, calls: seq<(string, Json)>)

  /** `raw.get('tool')` of a dict, None otherwise. */
  function ToolOf(raw: Json): Json {
    if raw.JObject? then Get(raw.fields, "tool") else JNull
  }

  /** `raw.get('args', {})` of a dict, `{}` otherwise. */
  function ArgsOf(raw: Json): Json {
    if raw.JObject? then GetOr(raw.fields, "args", EmptyObject) else EmptyObject
  }

  /** Every check before the handler passes: the output is a dict naming a
      registered tool, and its arguments satisfy that tool's schema. */
  predicate Admitted(raw: Json) {
    && raw.JObject?
    && ToolOf(raw).JString? && ToolOf(raw).s in Registry
    && ToolOf(raw).s in ToolSchemas
    && Conforms(ToolSchemas[ToolOf(raw).s], ArgsOf(raw))
  }

  /** `invoke` once `ask_model` has returned `raw`. */
  function Invoke(raw: Json, userId: string, env: Env, st: State, id: string, now: string): (r: Response)
    ensures |r.calls| <= 1
    ensures |r.calls| == 1 <==> Admitted(raw)
    ensures |r.calls| == 1 ==> r.calls[0] == (ToolOf(raw).s, ArgsOf(raw))
    ensures !r.outcome.Success? ==> r.state == st
    ensures Admitted(raw) ==>
              var run := Run(Registry[ToolOf(raw).s], ArgsOf(raw), env, st);
              r.state == run.1 && (run.0.Err? ==> r.outcome == HttpError(500, ToolFailed(run.0.error)))
    ensures r.outcome.HttpError? ==> r.outcome.status in {400, 500}
    ensures r.outcome.HttpError? ==> (r.outcome.status == 500 <==> |r.calls| == 1)
    ensures Admitted(raw) ==>
              var run := Run(Registry[ToolOf(raw).s], ArgsOf(raw), env, st);
              run.0.Ok? ==> r.outcome == Success(Audit(id, userId, ToolOf(raw), ArgsOf(raw), run.0.value, now + "Z"))
    ensures r.outcome.Uncaught? <==> raw.JObject? && Truthy(ToolOf(raw)) && !Hashable(ToolOf(raw))
    ensures r.outcome.Uncaught? ==> r.outcome.fault == UnhashableTool(ToolOf(raw))
    ensures r.outcome.Success? ==>
              && Admitted(raw)
              && r.outcome.audit.id == id
              && r.outcome.audit.userId == userId
              && r.outcome.audit.tool == ToolOf(raw)
              && r.outcome.audit.args == ArgsOf(raw)
              && r.outcome.audit.time == now + "Z"
              && Run(Registry[ToolOf(raw).s], ArgsOf(raw), env, st) == (Ok(r.outcome.audit.result), r.state)
  {
    if !raw.JObject? then Response(HttpError(400, NotStructured), st, [])
    else
      var tool := Get(raw.fields, "tool");
      var args := GetOr(raw.fields, "args", EmptyObject);
      if !Truthy(tool) then Response(HttpError(400, MissingTool), st, [])
      else if !Hashable(tool) then Response(Uncaught(UnhashableTool(tool)), st, [])
      else if !(tool.JString? && tool.s in Registry) then Response(HttpError(400, UnknownTool(tool)), st, [])
      else
        var name := tool.s;
        var schema := if name in ToolSchemas then Some(ToolSchemas[name]) else None;
        SchemasCoverRegistry();
        ErrorsEmptyIffConforms(schema.value, args);
        if schema.Some? && HasKeywords(schema.value) && Errors(schema.value, args) != [] then
          Response(HttpError(400, InvalidArgs(Errors(schema.value, args))), st, [])
        else
          var (result, st') := Run(Registry[name], args, env, st);
          match result
          case Err(e) => Response(HttpError(500, ToolFailed(e)), st', [(name, args)])
          case Ok(v) => Response(Success(Audit(id, userId, tool, args, v, now + "Z")), st', [(name, args)])
  }

  /** `invoke` from the completion text: `ask_model`, then the checks. An
      exception from `ask_model` escapes unhandled. */
  function Serve(completion: string, loads: string -> Option<Json>, userId: string, env: Env, st: State,
                 id: string, now: string): (r: Response)
    ensures |r.calls| <= 1
    ensures |r.calls| == 1 <==> AskModel(completion, loads).Ok? && Admitted(AskModel(completion, loads).value)
    ensures |r.calls| == 1 ==> StartsWith(Strip(completion), Fence)
    ensures !r.outcome.Success? ==> r.state == st
    ensures r.outcome.Success? ==>
              && StartsWith(Strip(completion), Fence)
              && r.outcome.audit.id == id
              && r.outcome.audit.userId == userId
              && r.outcome.audit.time == now + "Z"
    ensures !StartsWith(Strip(completion), Fence) ==> r == Response(Uncaught(AskFailed(UnboundParts)), st, [])
    ensures r.outcome.Uncaught? <==>
              || AskModel(completion, loads).Err?
              || (var raw := AskModel(completion, loads).value;
                  raw.JObject? && Truthy(ToolOf(raw)) && !Hashable(ToolOf(raw)))
  {
    match AskModel(completion, loads)
    case Err(e) => Response(Uncaught(AskFailed(e)), st, [])
    case Ok(raw) => Invoke(raw, userId, env, st, id, now)
  }

  // ---------------------------------------------------------------------
  // The tables

  /** The schema table and the registry have the same keys, and every schema
      is a non-empty dict: validation is never skipped for a registered tool. */
  lemma SchemasCoverRegistry()
    ensures ToolSchemas.Keys == Registry.Keys
    ensures forall n :: n in ToolSchemas ==> HasKeywords(ToolSchemas[n])
  {
    RegistryContents();
  }

  // ---------------------------------------------------------------------
  // Each check, in order

  /** Output that is not a dict is refused; nothing runs and nothing changes. */
  lemma NotStructuredRejected(raw: Json, userId: string, env: Env, st: State, id: string, now: string)
    requires !raw.JObject?
    ensures Invoke(raw, userId, env, st, id, now) == Response(HttpError(400, NotStructured), st, [])
  {
  }

  /** A missing or falsy `tool` (None, false, 0, "", [] or {}) is refused
      before the registry is consulted. */
  lemma MissingToolRejected(fields: map<string, Json>, userId: string, env: Env, st: State, id: string, now: string)
    requires "tool" !in fields || !Truthy(fields["tool"])
    ensures Invoke(JObject(fields), userId, env, st, id, now) == Response(HttpError(400, MissingTool), st, [])
  {
  }

  /** A non-empty list or dict as `tool` cannot be looked up: the TypeError
      escapes `invoke`. */
  lemma UnhashableToolUncaught(fields: map<string, Json>, userId: string, env: Env, st: State, id: string, now: string)
    requires "tool" in fields && Truthy(fields["tool"]) && !Hashable(fields["tool"])
    ensures Invoke(JObject(fields), userId, env, st, id, now)
            == Response(Uncaught(UnhashableTool(fields["tool"])), st, [])
  {
  }

  /** A tool the registry does not hold is refused before validation. */
  lemma UnknownToolRejected(fields: map<string, Json>, userId: string, env: Env, st: State, id: string, now: string)
    requires "tool" in fields && Truthy(fields["tool"]) && Hashable(fields["tool"])
    requires !(fields["tool"].JString? && fields["tool"].s in Registry)
    ensures Invoke(JObject(fields), userId, env, st, id, now)
            == Response(HttpError(400, UnknownTool(fields["tool"])), st, [])
  {
  }

  /** Arguments that fail the tool's schema are refused with every violation
      listed; the handler is not called. */
  lemma InvalidArgsRejected(fields: map<string, Json>, userId: string, env: Env, st: State, id: string, now: string)
    requires "tool" in fields && fields["tool"].JString? && fields["tool"].s in Registry
    requires !Conforms(ToolSchemas[fields["tool"].s], GetOr(fields, "args", EmptyObject))
    ensures Invoke(JObject(fields), userId, env, st, id, now)
            == Response(HttpError(400, InvalidArgs(Errors(ToolSchemas[fields["tool"].s],
                                                           GetOr(fields, "args", EmptyObject)))), st, [])
    ensures Errors(ToolSchemas[fields["tool"].s], GetOr(fields, "args", EmptyObject)) != []
  {
    SchemasCoverRegistry();
    ErrorsEmptyIffConforms(ToolSchemas[fields["tool"].s], GetOr(fields, "args", EmptyObject));
  }

  /** Absent `args` default to `{}`, which misses the required parameters of
      either tool: the request is refused and the handler is not called. */
  lemma AbsentArgsRejected(fields: map<string, Json>, userId: string, env: Env, st: State, id: string, now: string)
    requires "tool" in fields && fields["tool"].JString? && fields["tool"].s in Registry
    requires "args" !in fields
    ensures ArgsOf(JObject(fields)) == EmptyObject
    ensures Invoke(JObject(fields), userId, env, st, id, now).outcome.HttpError?
    ensures Invoke(JObject(fields), userId, env, st, id, now).outcome.status == 400
    ensures Invoke(JObject(fields), userId, env, st, id, now).calls == []
  {
    RegistryContents();
    assert UpdateFileSchema.required[0] == "path";
    assert CreateUserSchema.required[0] == "username";
    InvalidArgsRejected(fields, userId, env, st, id, now);
  }

  /** A handler exception becomes a 500 carrying that exception; the state
      is left as it was. */
  lemma HandlerFailureReported(fields: map<string, Json>, userId: string, env: Env, st: State, id: string, now: string)
    requires Admitted(JObject(fields))
    requires Run(Registry[fields["tool"].s], GetOr(fields, "args", EmptyObject), env, st).0.Err?
    ensures Invoke(JObject(fields), userId, env, st, id, now)
            == Response(HttpError(500, ToolFailed(Run(Registry[fields["tool"].s], GetOr(fields, "args", EmptyObject), env, st).0.error)),
                        st, [(fields["tool"].s, GetOr(fields, "args", EmptyObject))])
  {
    SchemasCoverRegistry();
    ErrorsEmptyIffConforms(ToolSchemas[fields["tool"].s], GetOr(fields, "args", EmptyObject));
  }

  // ---------------------------------------------------------------------
  // From validation to the handler

  /** Validated `update_file` arguments (see `UpdateFileArgsValid`) without extra keys reach the handler
      as they are, `overwrite` defaulting to false. */
  lemma UpdateFileRunsHandler(args: Json, env: Env, st: State)
    requires UpdateFileShape(args)
    requires args.fields.Keys <= Parameters(UpdateFile)
    ensures Run(UpdateFile, args, env, st)
            == UpdateFileHandler(env, st, args.fields["path"].s, args.fields["content"].s,
                                 GetOr(args.fields, "overwrite", JBool(false)))
  {
  }

  /** Validated `create_user` arguments (see `CreateUserArgsValid`) without extra keys reach the handler
      as they are. */
  lemma CreateUserRunsHandler(args: Json, env: Env, st: State)
    requires CreateUserShape(args)
    requires args.fields.Keys <= Parameters(CreateUser)
    ensures Run(CreateUser, args, env, st)
            == CreateUserHandler(st, args.fields["username"].s, args.fields["roles"])
  {
  }

  /** Validation guarantees the handlers their string parameters: an
      admitted request never reaches an argument of the wrong kind. */
  lemma AdmittedArgumentsTyped(raw: Json, env: Env, st: State)
    requires Admitted(raw)
    ensures Run(Registry[ToolOf(raw).s], ArgsOf(raw), env, st).0.Err? ==>
              !Run(Registry[ToolOf(raw).s], ArgsOf(raw), env, st).0.error.UnvalidatedArgument?
  {
    var name := ToolOf(raw).s;
    var args := ArgsOf(raw);
    RegistryContents();
    ErrorsEmptyIffConforms(ToolSchemas[name], args);
    if name == "update_file" {
      UpdateFileTyped(args, env, st);
    } else {
      CreateUserTyped(args, env, st);
    }
  }

  lemma UpdateFileTyped(args: Json, env: Env, st: State)
    requires Errors(UpdateFileSchema, args) == []
    ensures Run(UpdateFile, args, env, st).0.Err? ==> !Run(UpdateFile, args, env, st).0.error.UnvalidatedArgument?
  {
    UpdateFileArgsValid(args);
  }

  lemma CreateUserTyped(args: Json, env: Env, st: State)
    requires Errors(CreateUserSchema, args) == []
    ensures Run(CreateUser, args, env, st).0.Err? ==> !Run(CreateUser, args, env, st).0.error.UnvalidatedArgument?
  {
    CreateUserArgsValid(args);
  }

  /** A key that is not a parameter of the handler makes the call raise
      TypeError before the handler body runs, naming one of the unexpected
      keys: `key` itself when it is the only one. */
  lemma RunRejectsUnknownKeyword(t: Tool, args: map<string, Json>, key: string, env: Env, st: State)
    requires key in args && key !in Parameters(t)
    ensures Run(t, JObject(args), env, st).0.Err?
    ensures Run(t, JObject(args), env, st).1 == st
    ensures Run(t, JObject(args), env, st).0.error.TypeError?
    ensures Run(t, JObject(args), env, st).0.error.problem.UnexpectedKeyword?
    ensures Run(t, JObject(args), env, st).0.error.problem.name in args.Keys - Parameters(t)
    ensures args.Keys - Parameters(t) == {key} ==> Run(t, JObject(args), env, st).0.error.problem.name == key
  {
    assert key in args.Keys - Parameters(t);
  }

  /** No `additionalProperties`: an extra key passes validation, then the
      call `tool_fn(**args)` raises TypeError and the request ends in 500.
      The error names an unexpected key; `key` when it is the only one. */
  lemma ExtraKeyFailsAtCall(fields: map<string, Json>, args: map<string, Json>, key: string, v: Json,
                            userId: string, env: Env, st: State, id: string, now: string)
    requires "tool" in fields && fields["tool"].JString? && fields["tool"].s in Registry
    requires Errors(ToolSchemas[fields["tool"].s], JObject(args)) == []
    requires key !in {"path", "content", "overwrite", "username", "roles"}
    requires "args" in fields && fields["args"] == JObject(args[key := v])
    ensures Errors(ToolSchemas[fields["tool"].s], fields["args"]) == []
    ensures var r := Invoke(JObject(fields), userId, env, st, id, now);
            && r.outcome.HttpError? && r.outcome.status == 500
            && r.outcome.detail.ToolFailed?
            && r.outcome.detail.error.TypeError?
            && r.outcome.detail.error.problem.UnexpectedKeyword?
            && r.outcome.detail.error.problem.name in args.Keys + {key}
            && r.outcome.detail.error.problem.name !in Parameters(Registry[fields["tool"].s])
            && r.state == st
    ensures args.Keys <= Parameters(Registry[fields["tool"].s]) ==>
              Invoke(JObject(fields), userId, env, st, id, now).outcome.detail.error.problem.name == key
  {
    var name := fields["tool"].s;
    RegistryContents();
    ExtraKeysIgnored(args, key, v);
    ErrorsEmptyIffConforms(ToolSchemas[name], fields["args"]);
    assert Admitted(JObject(fields));
    assert key !in Parameters(Registry[name]);
    RunRejectsUnknownKeyword(Registry[name], args[key := v], key, env, st);
  }

  // ---------------------------------------------------------------------
  // From the completion text

  /** Unfenced model output, even a well-formed JSON object, fails inside
      `ask_model`: nothing runs and nothing changes. */
  lemma UnfencedOutputUncaught(completion: string, loads: string -> Option<Json>, userId: string, env: Env,
                               st: State, id: string, now: string)
    requires |Strings.Strip(completion)| > 0 && Strings.Strip(completion)[0] != '`'
    ensures Serve(completion, loads, userId, env, st, id, now) == Response(Uncaught(AskFailed(UnboundParts)), st, [])
  {
    UnfencedFails(completion, loads);
  }
}

=== FILE: gateway.dfy ===
/**
 * What `ask_model` does with the completion text once the language model
 * has produced it: strip surrounding whitespace, cut out the first fenced
 * block, and hand what remains to `json.loads`. The model call is left out;
 * `json.loads` is an oracle passed in as a total function.
 */
module Gateway {
  import opened Results
  import opened Json
  import opened Strings

  /** The code-fence marker, three backticks. */
  const Fence: string := "```"

  datatype AskError =
      /** The stripped text does not start with a fence: `parts` is read
          without ever having been assigned (UnboundLocalError). */
    | UnboundParts
      /** `json.loads` rejected the extracted text; the ValueError message
          carries the text's repr. */
    | Unparseable(text: string)

  /** The text handed to `json.loads`: the completion stripped; then, when it
      opens with a fence, the stripped text between the first fence and the
      next one (or the end). Anything else fails before parsing. */
  function ExtractText(completion: string): (r: Result<string, AskError>)
    ensures r.Ok? <==> StartsWith(Strip(completion), Fence)
    ensures r.Err? ==> r.error == UnboundParts
    ensures r.Ok? ==> Trimmed(r.value)
    ensures r.Ok? ==> r.value == Strip(FirstPiece(Strip(completion)[|Fence|..], Fence))
  {
    var text := Strip(completion);
    if StartsWith(text, Fence) then
      SplitAfterLeadingSeparator(text, Fence);
      var parts := Split(text, Fence);
      Ok(Strip(parts[1]))
    else
      Err(UnboundParts)
  }

  /** `ask_model` after the completion: extraction, then the parse oracle.
      The parsed value is returned as is, whatever its kind. */
  function AskModel(completion: string, loads: string -> Option<Json>): (r: Result<Json, AskError>)
    ensures r.Ok? <==> ExtractText(completion).Ok? && loads(ExtractText(completion).value).Some?
    ensures r.Ok? ==> loads(ExtractText(completion).value) == Some(r.value)
    ensures !StartsWith(Strip(completion), Fence) ==> r == Err(UnboundParts)
    ensures r.Err? && r.error.Unparseable? ==>
              ExtractText(completion) == Ok(r.error.text) && loads(r.error.text).None?
  {
    match ExtractText(completion)
    case Err(e) => Err(e)
    case Ok(text) =>
      match loads(text)
      case Some(v) => Ok(v)
      case None => Err(Unparseable(text))
  }

  // ---------------------------------------------------------------------
  // Properties of the extraction

  /** `s` with its leading and trailing whitespace pulled apart. */
  lemma StripSplits(s: string)
    ensures AllSpace(s[..LeadingSpaces(s)])
    ensures AllSpace(s[LeadingSpaces(s) + |Strip(s)|..])
    ensures s == s[..LeadingSpaces(s)] + Strip(s) + s[LeadingSpaces(s) + |Strip(s)|..]
  {
    var a := LeadingSpaces(s);
    var e := a + |Strip(s)|;
    PrefixSpaces(s, a);
    SuffixSpaces(s, e);
    ThreeSlices(s, a, e);
  }

  /** Whitespace around a text does not change what stripping leaves. */
  lemma {:induction false} StripPadding(p: string, c: string, q: string)
    requires AllSpace(p) && AllSpace(q)
    ensures Strip(p + c + q) == Strip(c)
  {
    var pre, post := PaddedPieces(p, c, q);
    StripRecovers(pre, Strip(c), post);
  }

  /** Padding plus `c` is all-whitespace, then `Strip(c)`, then all-whitespace. */
  lemma PaddedPieces(p: string, c: string, q: string) returns (pre: string, post: string)
    requires AllSpace(p) && AllSpace(q)
    ensures AllSpace(pre) && AllSpace(post) && Trimmed(Strip(c))
    ensures p + c + q == pre + Strip(c) + post
  {
    var a := LeadingSpaces(c);
    var t := Strip(c);
    var x, y := c[..a], c[a + |t|..];
    StripSplits(c);
    AllSpaceConcat(p, x);
    AllSpaceConcat(y, q);
    pre := p + x;
    post := y + q;
    Regroup(p, x, t, y, q);
  }

  /** Whitespace around the completion makes no difference: it is stripped
      before the fence check. */
  lemma PaddingIgnored(p: string, c: string, q: string)
    requires AllSpace(p) && AllSpace(q)
    ensures ExtractText(p + c + q) == ExtractText(c)
  {
    StripPadding(p, c, q);
  }

  /** A text with no backtick contains no fence. */
  lemma NoBacktickNoFence(b: string)
    requires '`' !in b
    ensures Free(b, Fence)
  {
    forall i: nat | i + 3 <= |b| ensures !OccursAt(b, Fence, i) {
      assert b[i..i + 3][0] == b[i];
    }
  }

  /** `FirstPiece` stops at the leftmost occurrence of the separator. */
  lemma FirstPieceAt(s: string, sep: string, n: nat)
    requires |sep| > 0 && OccursAt(s, sep, n)
    requires forall i: nat :: i < n ==> !OccursAt(s, sep, i)
    ensures FirstPiece(s, sep) == s[..n]
  {
    var _ := Find(s, sep);
  }

  /** The first piece of `b + Fence + tail` is `b` when `b` has no backtick:
      no fence can start inside `b`. */
  lemma FirstPieceBeforeFence(b: string, tail: string)
    requires '`' !in b
    ensures FirstPiece(b + Fence + tail, Fence) == b
  {
    var s := b + Fence + tail;
    assert s[|b|..|b| + 3] == Fence;
    forall i: nat | i < |b| ensures !OccursAt(s, Fence, i) {
      assert s[i] == b[i];
      if i + 3 <= |s| {
        assert s[i..i + 3][0] == s[i];
      }
    }
    FirstPieceAt(s, Fence, |b|);
  }

  /** The first piece of a text with no backtick is the whole text. */
  lemma FirstPieceNoFence(b: string)
    requires '`' !in b
    ensures FirstPiece(b, Fence) == b
  {
    NoBacktickNoFence(b);
    var r := FirstPiece(b, Fence);
    assert |r| == |b|;
    assert b[..|r|] == r;
  }

  /** Once the stripped text is a fence followed by `body`, the extracted
      text is the stripped first piece of `body`. */
  lemma ExtractOpened(c: string, body: string)
    requires Strip(c) == Fence + body
    ensures ExtractText(c) == Ok(Strip(FirstPiece(body, Fence)))
  {
    assert Strip(c)[|Fence|..] == body;
  }

  /** A fence followed by text is trimmed when the text ends in a non-space. */
  lemma FencedTrimmed(t: string)
    requires |t| > 0 ==> !IsSpace(t[|t| - 1])
    ensures Trimmed(Fence + t)
  {
    var s := Fence + t;
    assert s[0] == '`';
    assert s[|s| - 1] == (if |t| > 0 then t[|t| - 1] else '`');
  }

  /** A fenced block, wrapped in any whitespace, yields its body stripped;
      text after the closing fence is dropped. */
  lemma {:induction false} FencedBlockExtracted(p: string, b: string, tail: string, q: string)
    requires AllSpace(p) && AllSpace(q)
    requires '`' !in b
    requires |tail| > 0 ==> !IsSpace(tail[|tail| - 1])
    ensures ExtractText(p + Fence + b + Fence + tail + q) == Ok(Strip(b))
  {
    var body := b + Fence + tail;
    assert |body| > 0 && body[|body| - 1] == (if |tail| > 0 then tail[|tail| - 1] else '`');
    FencedTrimmed(body);
    assert p + Fence + b + Fence + tail + q == p + (Fence + body) + q;
    StripRecovers(p, Fence + body, q);
    ExtractOpened(p + Fence + b + Fence + tail + q, body);
    FirstPieceBeforeFence(b, tail);
  }

  /** A fence that is never closed: the rest of the text is the body. */
  lemma {:induction false} UnclosedFenceExtracted(p: string, b: string, q: string)
    requires AllSpace(p) && AllSpace(q)
    requires '`' !in b
    requires |b| > 0 ==> !IsSpace(b[|b| - 1])
    ensures ExtractText(p + Fence + b + q) == Ok(Strip(b))
  {
    UnclosedStripped(p, b, q);
    ExtractOpened(p + Fence + b + q, b);
    FirstPieceNoFence(b);
  }

  lemma UnclosedStripped(p: string, b: string, q: string)
    requires AllSpace(p) && AllSpace(q)
    requires |b| > 0 ==> !IsSpace(b[|b| - 1])
    ensures Strip(p + Fence + b + q) == Fence + b
  {
    FencedTrimmed(b);
    assert p + Fence + b + q == p + (Fence + b) + q;
    StripRecovers(p, Fence + b, q);
  }

  /** Stripping keeps a prefix that begins and ends with non-whitespace. */
  lemma StripKeepsPrefix(s: string, pre: string)
    requires StartsWith(s, pre) && |pre| > 0
    requires !IsSpace(pre[0]) && !IsSpace(pre[|pre| - 1])
    ensures StartsWith(Strip(s), pre)
  {
    assert s[0] == pre[0];
    LeadingSpacesExact(s, 0);
    var r := Strip(s);
    assert s[|pre| - 1] == pre[|pre| - 1];
    assert r == s[..|r|];
    assert r[..|pre|] == s[..|pre|];
  }

  /** The language tag is not removed: for a block fenced as ```json, the
      text handed to `json.loads` still begins with `json`. */
  lemma {:induction false} LanguageTagKept(b: string)
    requires '`' !in b
    ensures ExtractText("```json\n" + b + "\n```").Ok?
    ensures StartsWith(ExtractText("```json\n" + b + "\n```").value, "json")
  {
    var body := TaggedBody(b);
    TaggedBlock(b, body);
    TagSurvivesStrip(body);
  }

  lemma TagSurvivesStrip(body: string)
    requires StartsWith(body, "json")
    ensures StartsWith(Strip(body), "json")
  {
    StripKeepsPrefix(body, "json");
  }

  lemma TaggedBlock(b: string, body: string)
    requires body == "json\n" + b + "\n" && '`' !in body
    ensures ExtractText("```json\n" + b + "\n```") == Ok(Strip(body))
  {
    assert "```json\n" + b + "\n```" == "" + Fence + body + Fence + "" + "";
    FencedBlockExtracted("", body, "", "");
  }

  /** The text between the fences of a ```json block. */
  lemma TaggedBody(b: string) returns (body: string)
    requires '`' !in b
    ensures body == "json\n" + b + "\n"
    ensures '`' !in body
    ensures StartsWith(body, "json")
  {
    body := "json\n" + b + "\n";
    assert forall i :: 0 <= i < |b| ==> body[5 + i] == b[i];
    assert body[..4] == "json";
  }

  /** Four backticks split at the leftmost fence: an empty first piece and
      a single backtick after it. */
  lemma FourBackticksSplit()
    ensures Split("````", Fence) == ["", "`"]
  {
    assert OccursAt("````", Fence, 0);
    assert "````"[3..] == "`";
    assert Find("`", Fence) == None;
  }

  /** Output that does not open with a fence never reaches the parser, even
      a well-formed JSON object. */
  lemma UnfencedFails(completion: string, loads: string -> Option<Json>)
    requires |Strip(completion)| > 0 && Strip(completion)[0] != '`'
    ensures AskModel(completion, loads) == Err(UnboundParts)
  {
  }

  // ---------------------------------------------------------------------
  // Proof helpers: small facts about sequences, each stated over plain
  // variables so that it is proved apart from the facts about stripping

  lemma PrefixSpaces(s: string, n: nat)
    requires n <= |s| && SpacesBetween(s, 0, n)
    ensures AllSpace(s[..n])
  {
  }

  lemma SuffixSpaces(s: string, n: nat)
    requires n <= |s| && SpacesBetween(s, n, |s|)
    ensures AllSpace(s[n..])
  {
    assert forall i :: 0 <= i < |s| - n ==> s[n..][i] == s[n + i];
  }

  /** A text is the concatenation of its slices at two cut points. */
  lemma ThreeSlices(s: string, i: nat, j: nat)
    requires i <= j <= |s|
    ensures s == s[..i] + s[i..j] + s[j..]
  {
  }

  /** Regrouping a concatenation. */
  lemma Regroup(p: string, x: string, t: string, y: string, q: string)
    ensures p + (x + t + y) + q == (p + x) + t + (y + q)
  {
  }

  lemma AllSpaceConcat(x: string, y: string)
    requires AllSpace(x) && AllSpace(y)
    ensures AllSpace(x + y)
  {
    assert forall i :: 0 <= i < |x| ==> (x + y)[i] == x[i];
    assert forall i :: |x| <= i < |x + y| ==> (x + y)[i] == y[i - |x|];
  }
}

=== FILE: json.dfy ===
/**
 * The values `json.loads` produces, and the two Python-level notions the
 * dispatcher applies to them: truthiness (`if not tool`) and hashability
 * (`tool not in TOOL_REGISTRY`).
 */
module Json {

  /** A decoded JSON value. Objects are keyed maps; floats are kept as exact
      reals, since only their truthiness and type are ever observed. */
  datatype Json =
    | JNull
    | JBool(b: bool)
    | JInt(i: int)
    | JFloat(f: real)
    | JString(s: string)
    | JArray(elems: seq<Json>)
    | JObject(fields: map<string, Json>)

  /** Python truthiness: None, False, zero, and empty strings, lists and
      dicts are falsy; everything else is truthy. */
  predicate Truthy(j: Json) {
    match j
    case JNull => false
    case JBool(b) => b
    case JInt(i) => i != 0
    case JFloat(f) => f != 0.0
    case JString(s) => |s| > 0
    case JArray(a) => |a| > 0
    case JObject(m) => |m| > 0
  }

  /** Lists and dicts are unhashable: using one as a dictionary key, or in a
      membership test against a dict, raises TypeError. */
  predicate Hashable(j: Json) {
    !j.JArray? && !j.JObject?
  }

  /** `d.get(key)`: the value at `key`, or None when the key is absent. */
  function Get(fields: map<string, Json>, key: string): Json
  {
    if key in fields then fields[key] else JNull
  }

  /** `d.get(key, default)`. */
  function GetOr(fields: map<string, Json>, key: string, default: Json): Json
  {
    if key in fields then fields[key] else default
  }

  /** The empty dict `{}`. */
  const EmptyObject: Json := JObject(map[])
}

=== FILE: paths.dfy ===
/**
 * POSIX path handling as `os.path` does it, purely lexically (no symlink
 * resolution): `join`, `normpath` and `abspath`, and the facts about
 * normalised absolute paths that the workspace confinement check rests on.
 *
 * A normalised path is kept as a number of leading slashes (0, 1 or 2:
 * POSIX keeps exactly two leading slashes and folds three or more into one)
 * and a sequence of components.
 */
module Paths {
  import opened Strings

  predicate IsAbs(p: string) {
    StartsWith(p, "/")
  }

  /** `k` slashes. */
  function Slashes(k: nat): string
  {
    seq(k, i => '/')
  }

  /** `k` empty components: what splitting `k` leading slashes produces. */
  function Empties(k: nat): seq<string>
  {
    seq(k, i => "")
  }

  /** No component contains a slash. */
  predicate SlashFree(comps: seq<string>) {
    forall i :: 0 <= i < |comps| ==> '/' !in comps[i]
  }

  /** The components of a normalised absolute path: no empty, `.` or `..`
      component, and no slash inside a component. */
  predicate Canonical(comps: seq<string>) {
    forall i :: 0 <= i < |comps| ==>
      comps[i] != "" && comps[i] != "." && comps[i] != ".." && '/' !in comps[i]
  }

  /** How many leading slashes normpath keeps. */
  function InitialSlashes(p: string): (k: nat)
    ensures k <= 2
    ensures k > 0 <==> IsAbs(p)
    ensures k == 2 <==> |p| >= 2 && p[0] == '/' && p[1] == '/' && (|p| == 2 || p[2] != '/')
    ensures |p| >= 3 && p[0] == '/' && p[1] == '/' && p[2] == '/' ==> k == 1
  {
    if StartsWith(p, "//") && !StartsWith(p, "///") then 2
    else if StartsWith(p, "/") then 1
    else 0
  }

  /** One turn of normpath's loop over the components: skip empty and `.`
      components, let `..` cancel the previous real component, keep a `..`
      that cannot be cancelled only in a relative path. */
  function Step(acc: seq<string>, comp: string, rooted: bool): seq<string>
  {
    if comp == "" || comp == "." then acc
    else if comp != ".." || (!rooted && |acc| == 0) || (|acc| > 0 && acc[|acc| - 1] == "..") then acc + [comp]
    else if |acc| > 0 then acc[..|acc| - 1]
    else acc
  }

  /** normpath's loop: `Step` applied to the components left to right. */
  function Fold(acc: seq<string>, comps: seq<string>, rooted: bool): seq<string>
    decreases |comps|
  {
    if |comps| == 0 then acc else Fold(Step(acc, comps[0], rooted), comps[1..], rooted)
  }

  /** A path given by its leading slashes and components. */
  datatype Normal = Normal(slashes: nat, comps: seq<string>)

  /** The text of a path with `k` leading slashes and components `comps`. */
  function Render(k: nat, comps: seq<string>): string {
    Slashes(k) + Join(comps, "/")
  }

  /** The leading slashes and components normpath computes for `p`. */
  function NormParts(p: string): Normal {
    var k := InitialSlashes(p);
    Normal(k, Fold([], Split(p, "/"), k > 0))
  }

  /** `os.path.normpath(p)`. */
  function NormPath(p: string): (r: string)
    ensures |r| > 0
    ensures IsAbs(p) ==> IsAbs(r)
  {
    if p == "" then "."
    else
      var n := NormParts(p);
      var r := Render(n.slashes, n.comps);
      if r == "" then "." else r
  }

  /** `os.path.join(a, b)` for two arguments: an absolute `b` replaces `a`. */
  function PosixJoin(a: string, b: string): (r: string)
    ensures IsAbs(b) ==> r == b
    ensures !IsAbs(b) ==> StartsWith(r, a) && |a| + |b| <= |r| <= |a| + |b| + 1 && r[|r| - |b|..] == b
    ensures !IsAbs(b) && a != "" ==> r[|r| - |b| - 1] == '/'
  {
    if IsAbs(b) then b
    else if a == "" || a[|a| - 1] == '/' then a + b
    else a + "/" + b
  }

  /** `os.path.abspath(p)` with the current directory `cwd` passed in. */
  function AbsPath(cwd: string, p: string): (r: string)
    ensures IsAbs(cwd) || IsAbs(p) ==> IsAbs(r)
  {
    NormPath(if IsAbs(p) then p else PosixJoin(cwd, p))
  }

  // ---------------------------------------------------------------------
  // Facts about the pieces of a path

  lemma FreeSingle(x: string, c: char)
    requires Free(x, [c])
    ensures c !in x
  {
    forall i | 0 <= i < |x| ensures x[i] != c {
      assert x[i..i + 1] == [x[i]];
      assert !OccursAt(x, [c], i);
    }
  }

  lemma SplitSlashFree(p: string)
    ensures SlashFree(Split(p, "/"))
  {
    var parts := Split(p, "/");
    forall i | 0 <= i < |parts| ensures '/' !in parts[i] {
      FreeSingle(parts[i], '/');
    }
  }

  lemma {:induction false} JoinAppend(xs: seq<string>, ys: seq<string>, sep: string)
    requires |xs| > 0 && |ys| > 0
    ensures Join(xs + ys, sep) == Join(xs, sep) + sep + Join(ys, sep)
    decreases |xs|
  {
    if |xs| == 1 {
      assert (xs + ys)[1..] == ys;
    } else {
      assert (xs + ys)[1..] == xs[1..] + ys;
      JoinAppend(xs[1..], ys, sep);
    }
  }

  /** Leading empty components render as leading slashes. */
  lemma {:induction false} JoinEmpties(k: nat, xs: seq<string>)
    requires |xs| > 0
    ensures Join(Empties(k) + xs, "/") == Slashes(k) + Join(xs, "/")
    decreases k
  {
    if k > 0 {
      var ys := Empties(k - 1) + xs;
      assert Empties(k) + xs == [""] + ys;
      assert ([""] + ys)[1..] == ys;
      assert Join([""] + ys, "/") == "" + "/" + Join(ys, "/");
      JoinEmpties(k - 1, xs);
      assert Slashes(k) == "/" + Slashes(k - 1);
    } else {
      assert Empties(k) + xs == xs;
    }
  }

  lemma JoinStartsWithHead(xs: seq<string>)
    requires |xs| > 0
    ensures StartsWith(Join(xs, "/"), xs[0])
  {
  }

  /** `k` (one or two) slashes followed by text that does not start with a
      slash keep exactly `k` initial slashes. */
  lemma InitialSlashesOf(k: nat, x: string)
    requires 1 <= k <= 2 && !StartsWith(x, "/")
    ensures InitialSlashes(Slashes(k) + x) == k
  {
    var s := Slashes(k) + x;
    assert s[..1] == "/";
    if k == 2 {
      assert s[..2] == "//";
      assert |x| > 0 ==> s[2] == x[0] && x[..1] == [x[0]];
    } else {
      assert |x| > 0 ==> s[1] == x[0] && x[..1] == [x[0]];
    }
  }

  /** The text of a canonical component list does not start with a slash. */
  lemma JoinCanonicalNoSlashStart(comps: seq<string>)
    requires Canonical(comps)
    ensures !StartsWith(Join(comps, "/"), "/")
  {
    if |comps| > 0 {
      JoinStartsWithHead(comps);
      var j := Join(comps, "/");
      assert j[0] == comps[0][0];
      assert comps[0][0] in comps[0];
    }
  }

  // ---------------------------------------------------------------------
  // Facts about normpath's loop

  lemma {:induction false} FoldAppend(acc: seq<string>, a: seq<string>, b: seq<string>, rooted: bool)
    ensures Fold(acc, a + b, rooted) == Fold(Fold(acc, a, rooted), b, rooted)
    decreases |a|
  {
    if |a| > 0 {
      assert (a + b)[1..] == a[1..] + b;
      FoldAppend(Step(acc, a[0], rooted), a[1..], b, rooted);
    } else {
      assert a + b == b;
    }
  }

  lemma {:induction false} FoldEmpties(acc: seq<string>, k: nat, rooted: bool)
    ensures Fold(acc, Empties(k), rooted) == acc
    decreases k
  {
    if k > 0 {
      assert Empties(k)[1..] == Empties(k - 1);
      FoldEmpties(acc, k - 1, rooted);
    }
  }

  /** Canonical components pass through the loop unchanged. */
  lemma {:induction false} FoldCanonical(acc: seq<string>, comps: seq<string>)
    requires Canonical(comps)
    ensures Fold(acc, comps, true) == acc + comps
    decreases |comps|
  {
    if |comps| > 0 {
      FoldCanonical(acc + [comps[0]], comps[1..]);
      assert acc + [comps[0]] + comps[1..] == acc + comps;
    }
  }

  /** In a rooted path the loop only ever holds canonical components. */
  lemma {:induction false} FoldKeepsCanonical(acc: seq<string>, comps: seq<string>)
    requires Canonical(acc) && SlashFree(comps)
    ensures Canonical(Fold(acc, comps, true))
    decreases |comps|
  {
    if |comps| > 0 {
      var next := Step(acc, comps[0], true);
      assert Canonical(next) by {
        if |acc| > 0 && next == acc[..|acc| - 1] {
          assert forall i :: 0 <= i < |next| ==> next[i] == acc[i];
        }
      }
      FoldKeepsCanonical(next, comps[1..]);
    }
  }

  /** normpath of an absolute path keeps one or two leading slashes and
      leaves only canonical components; the text it returns is exactly
      those slashes followed by the components joined with `/`. */
  lemma NormalizedShape(p: string)
    requires IsAbs(p)
    ensures 1 <= NormParts(p).slashes <= 2
    ensures Canonical(NormParts(p).comps)
    ensures NormPath(p) == Render(NormParts(p).slashes, NormParts(p).comps)
  {
    SplitSlashFree(p);
    FoldKeepsCanonical([], Split(p, "/"));
  }

  /** The components normpath finds in a rendered canonical path are the
      ones it was rendered from. */
  lemma NormPartsOfRender(k: nat, comps: seq<string>)
    requires 1 <= k <= 2 && Canonical(comps)
    ensures NormParts(Render(k, comps)) == Normal(k, comps)
  {
    var tail := if |comps| == 0 then [""] else comps;
    var pieces := Empties(k) + tail;
    assert Join(tail, "/") == Join(comps, "/");
    JoinEmpties(k, tail);
    JoinCanonicalNoSlashStart(comps);
    InitialSlashesOf(k, Join(comps, "/"));
    SplitJoin(pieces, '/');
    FoldAppend([], Empties(k), tail, true);
    FoldEmpties([], k, true);
    FoldCanonical([], comps);
  }

  /** normpath is idempotent on absolute paths. */
  lemma NormPathIdempotent(p: string)
    requires IsAbs(p)
    ensures NormPath(NormPath(p)) == NormPath(p)
  {
    NormalizedShape(p);
    var n := NormParts(p);
    NormPartsOfRender(n.slashes, n.comps);
  }

  /** The pieces a joined base-plus-relative text splits into on `/`. */
  lemma JoinedPieces(k: nat, base: seq<string>, rel: string)
    requires 1 <= k <= 2 && Canonical(base) && !IsAbs(rel)
    ensures Join(Empties(k) + base + Split(rel, "/"), "/") == PosixJoin(Render(k, base), rel)
    ensures InitialSlashes(PosixJoin(Render(k, base), rel)) == k
  {
    if |base| == 0 {
      JoinedPiecesAtRoot(k, base, rel);
    } else {
      JoinedPiecesBelowRoot(k, base, rel);
    }
  }

  lemma JoinedPiecesAtRoot(k: nat, base: seq<string>, rel: string)
    requires 1 <= k <= 2 && |base| == 0 && !IsAbs(rel)
    ensures Join(Empties(k) + base + Split(rel, "/"), "/") == PosixJoin(Render(k, base), rel)
    ensures InitialSlashes(PosixJoin(Render(k, base), rel)) == k
  {
    var relParts := Split(rel, "/");
    assert Render(k, base) == Slashes(k);
    assert Empties(k) + base + relParts == Empties(k) + relParts;
    JoinEmpties(k, relParts);
    InitialSlashesOf(k, rel);
  }

  /** Below the root, `join` puts one slash between the base and `rel`. */
  lemma JoinOntoBase(k: nat, base: seq<string>, rel: string)
    requires |base| > 0 && Canonical(base) && !IsAbs(rel)
    ensures PosixJoin(Render(k, base), rel) == Render(k, base) + "/" + rel
  {
    RenderEndsInName(k, base);
  }

  /** A rendered path with at least one component does not end in a slash. */
  lemma RenderEndsInName(k: nat, base: seq<string>)
    requires |base| > 0 && Canonical(base)
    ensures |Render(k, base)| > 0 && Render(k, base)[|Render(k, base)| - 1] != '/'
  {
    var jb := Join(base, "/");
    var last := base[|base| - 1];
    JoinEndsWithLast(base);
    assert last[|last| - 1] in last;
    assert (Slashes(k) + jb)[|Slashes(k) + jb| - 1] == jb[|jb| - 1];
  }

  lemma JoinedPiecesBelowRoot(k: nat, base: seq<string>, rel: string)
    requires 1 <= k <= 2 && |base| > 0 && Canonical(base) && !IsAbs(rel)
    ensures Join(Empties(k) + base + Split(rel, "/"), "/") == PosixJoin(Render(k, base), rel)
    ensures InitialSlashes(PosixJoin(Render(k, base), rel)) == k
  {
    JoinOntoBase(k, base, rel);
    PiecesBelowRoot(k, base, rel);
    SlashesBelowRoot(k, base, rel);
  }

  /** Below the root the joined text keeps the base's leading slashes. */
  lemma SlashesBelowRoot(k: nat, base: seq<string>, rel: string)
    requires 1 <= k <= 2 && |base| > 0 && Canonical(base)
    ensures InitialSlashes(Render(k, base) + "/" + rel) == k
  {
    var jb := Join(base, "/");
    JoinStartsWithHead(base);
    JoinCanonicalNoSlashStart(base);
    assert (jb + "/" + rel)[..1] == jb[..1];
    InitialSlashesOf(k, jb + "/" + rel);
    assert Render(k, base) + "/" + rel == Slashes(k) + (jb + "/" + rel);
  }

  /** The pieces of base and relative part, joined, give the joined text. */
  lemma PiecesBelowRoot(k: nat, base: seq<string>, rel: string)
    requires |base| > 0
    ensures Join(Empties(k) + base + Split(rel, "/"), "/") == Render(k, base) + "/" + rel
  {
    var relParts := Split(rel, "/");
    assert Join(base + relParts, "/") == Join(base, "/") + "/" + rel by {
      JoinAppend(base, relParts, "/");
    }
    assert Empties(k) + base + relParts == Empties(k) + (base + relParts);
    JoinEmpties(k, base + relParts);
    assert Slashes(k) + (Join(base, "/") + "/" + rel) == Render(k, base) + "/" + rel;
  }

  lemma JoinEndsWithLast(xs: seq<string>)
    requires |xs| > 0 && |xs[|xs| - 1]| > 0
    ensures |Join(xs, "/")| > 0
    ensures Join(xs, "/")[|Join(xs, "/")| - 1] == xs[|xs| - 1][|xs[|xs| - 1]| - 1]
  {
    if |xs| > 1 {
      JoinEndsWithLast(xs[1..]);
    }
  }

  /** Joining a relative path onto a normalised absolute base and
      normalising again resolves the relative components against the base's
      components: the leading slashes are the base's, and the components
      are normpath's loop run over the relative part starting from the
      base's components. */
  lemma ResolveAgainstBase(k: nat, base: seq<string>, rel: string)
    requires 1 <= k <= 2 && Canonical(base) && !IsAbs(rel)
    ensures NormParts(PosixJoin(Render(k, base), rel)) == Normal(k, Fold(base, Split(rel, "/"), true))
  {
    var relParts := Split(rel, "/");
    var pieces := Empties(k) + base + relParts;
    JoinedPieces(k, base, rel);
    SplitSlashFree(rel);
    PiecesSlashFree(k, base, relParts);
    SplitJoin(pieces, '/');
    FoldPieces(k, base, relParts);
  }

  lemma PiecesSlashFree(k: nat, base: seq<string>, relParts: seq<string>)
    requires Canonical(base) && SlashFree(relParts)
    ensures SlashFree(Empties(k) + base + relParts)
  {
    var pieces := Empties(k) + base + relParts;
    forall i | 0 <= i < |pieces| ensures '/' !in pieces[i] {
      if i < k {
      } else if i < k + |base| {
        assert pieces[i] == base[i - k];
      } else {
        assert pieces[i] == relParts[i - k - |base|];
      }
    }
  }

  lemma FoldPieces(k: nat, base: seq<string>, relParts: seq<string>)
    requires Canonical(base)
    ensures Fold([], Empties(k) + base + relParts, true) == Fold(base, relParts, true)
  {
    FoldAppend([], Empties(k) + base, relParts, true);
    FoldAppend([], Empties(k), base, true);
    FoldEmpties([], k, true);
    FoldCanonical([], base);
    assert [] + base == base;
  }

  // ---------------------------------------------------------------------
  // What a character-prefix test means for normalised paths

  /** `base` is a leading run of whole components of `comps`: the path is
      the base directory itself or lies below it. */
  predicate ComponentPrefix(base: seq<string>, comps: seq<string>) {
    |base| <= |comps| && comps[..|base|] == base
  }

  /** `comps` agrees with `base` up to its last component, where it has a
      longer name that starts with the base's last name: a sibling such as
      `/srv/ws_x` next to the base `/srv/ws`. */
  predicate SiblingMatch(base: seq<string>, comps: seq<string>) {
    && 0 < |base| <= |comps|
    && comps[..|base| - 1] == base[..|base| - 1]
    && StartsWith(comps[|base| - 1], base[|base| - 1])
    && comps[|base| - 1] != base[|base| - 1]
  }

  /** Two slash-free names, each followed by a slash: one text starts with
      the other exactly when the names agree and the remainders do. */
  lemma PrefixThroughSlash(b: string, j: string, x: string, y: string)
    requires '/' !in b && '/' !in j
    ensures StartsWith(j + "/" + y, b + "/" + x) <==> b == j && StartsWith(y, x)
  {
    var u := j + "/" + y;
    var v := b + "/" + x;
    assert forall i :: 0 <= i < |j| ==> u[i] == j[i];
    assert u[|j|] == '/';
    assert forall i :: 0 <= i < |b| ==> v[i] == b[i];
    assert v[|b|] == '/';
    if StartsWith(u, v) {
      assert forall i :: 0 <= i < |v| ==> u[i] == v[i];
      assert |b| == |j|;
      assert b == u[..|b|] == j;
      assert y[..|x|] == u[|b| + 1..|v|] == v[|b| + 1..] == x;
    }
    if b == j && StartsWith(y, x) {
      assert u[..|v|] == b + "/" + y[..|x|];
    }
  }

  /** A slash-free name as a prefix of a name followed by more text. */
  lemma PrefixOfFirstName(b: string, j: string, y: string)
    requires '/' !in b && '/' !in j
    ensures StartsWith(j + "/" + y, b) <==> StartsWith(j, b)
  {
    var u := j + "/" + y;
    assert forall i :: 0 <= i < |j| ==> u[i] == j[i];
    assert u[|j|] == '/';
    if StartsWith(u, b) {
      assert forall i :: 0 <= i < |b| ==> u[i] == b[i];
      assert |b| <= |j|;
      assert j[..|b|] == u[..|b|];
    }
    if StartsWith(j, b) {
      assert u[..|b|] == j[..|b|];
    }
  }

  /** Character-prefix on joined canonical components holds exactly for a
      component prefix or a sibling whose last name extends the base's. */
  lemma {:induction false} JoinPrefix(base: seq<string>, comps: seq<string>)
    requires Canonical(base) && Canonical(comps)
    ensures StartsWith(Join(comps, "/"), Join(base, "/")) <==>
            ComponentPrefix(base, comps) || SiblingMatch(base, comps)
    decreases |base|
  {
    if |base| == 0 {
    } else if |comps| == 0 {
      assert |Join(base, "/")| > 0 by { JoinStartsWithHead(base); }
    } else if |base| == 1 {
      JoinPrefixOneName(base, comps);
    } else if |comps| == 1 {
      JoinPrefixLongerBase(base, comps);
    } else {
      var b := Join(base, "/");
      var j := Join(comps, "/");
      assert b == base[0] + "/" + Join(base[1..], "/");
      assert j == comps[0] + "/" + Join(comps[1..], "/");
      PrefixThroughSlash(base[0], comps[0], Join(base[1..], "/"), Join(comps[1..], "/"));
      JoinPrefix(base[1..], comps[1..]);
      if comps[0] == base[0] {
        PrefixCons(base, comps);
      } else {
        HeadMismatch(base, comps);
      }
    }
  }

  /** A base of one name: the text starts with it exactly when the first
      component does. */
  lemma JoinPrefixOneName(base: seq<string>, comps: seq<string>)
    requires |base| == 1 && |comps| > 0 && Canonical(base) && Canonical(comps)
    ensures StartsWith(Join(comps, "/"), Join(base, "/")) <==>
            ComponentPrefix(base, comps) || SiblingMatch(base, comps)
  {
    var j := Join(comps, "/");
    if |comps| == 1 {
      assert j == comps[0];
    } else {
      assert j == comps[0] + "/" + Join(comps[1..], "/");
      PrefixOfFirstName(base[0], comps[0], Join(comps[1..], "/"));
    }
    assert comps[..1] == [comps[0]];
  }

  /** A single name never starts with a base of two or more names. */
  lemma JoinPrefixLongerBase(base: seq<string>, comps: seq<string>)
    requires |base| > 1 && |comps| == 1 && Canonical(base) && Canonical(comps)
    ensures !StartsWith(Join(comps, "/"), Join(base, "/"))
    ensures !ComponentPrefix(base, comps) && !SiblingMatch(base, comps)
  {
    var b := Join(base, "/");
    assert b == base[0] + "/" + Join(base[1..], "/");
    assert b[|base[0]|] == '/';
    assert '/' !in comps[0];
    assert !StartsWith(comps[0], b);
  }

  /** With equal first names, both relations hold exactly when they hold
      for the rests. */
  lemma PrefixCons(base: seq<string>, comps: seq<string>)
    requires |base| > 1 && |comps| > 1 && base[0] == comps[0]
    ensures ComponentPrefix(base, comps) <==> ComponentPrefix(base[1..], comps[1..])
    ensures SiblingMatch(base, comps) <==> SiblingMatch(base[1..], comps[1..])
  {
    if ComponentPrefix(base[1..], comps[1..]) {
      assert comps[..|base|] == [comps[0]] + comps[1..][..|base| - 1];
      assert base == [base[0]] + base[1..];
    }
    if ComponentPrefix(base, comps) {
      assert comps[1..][..|base| - 1] == comps[..|base|][1..];
    }
    assert base[..|base| - 1] == [base[0]] + base[1..][..|base| - 2];
    if |base| <= |comps| {
      assert comps[..|base| - 1] == [comps[0]] + comps[1..][..|base| - 2];
    }
  }

  /** Different first names rule out both relations. */
  lemma HeadMismatch(base: seq<string>, comps: seq<string>)
    requires |base| > 1 && |comps| > 1 && base[0] != comps[0]
    ensures !ComponentPrefix(base, comps) && !SiblingMatch(base, comps)
  {
    assert |base| <= |comps| ==> comps[..|base|][0] == comps[0];
    assert |base| <= |comps| ==> comps[..|base| - 1][0] == comps[0];
  }

  /** The workspace check on rendered paths: a path with the same leading
      slashes as the base passes the character-prefix test exactly when it
      is the base, lies below it, or is a sibling whose name extends the
      base's last name. */
  lemma PrefixCheckExact(k: nat, base: seq<string>, comps: seq<string>)
    requires Canonical(base) && Canonical(comps)
    ensures StartsWith(Render(k, comps), Render(k, base)) <==>
            ComponentPrefix(base, comps) || SiblingMatch(base, comps)
  {
    var x := Join(comps, "/");
    var y := Join(base, "/");
    assert StartsWith(Slashes(k) + x, Slashes(k) + y) <==> StartsWith(x, y) by {
      if StartsWith(Slashes(k) + x, Slashes(k) + y) {
        assert x[..|y|] == (Slashes(k) + x)[k..k + |y|];
      }
      if StartsWith(x, y) {
        assert (Slashes(k) + x)[..k + |y|] == Slashes(k) + x[..|y|];
      }
    }
    JoinPrefix(base, comps);
  }
}

=== FILE: results.dfy ===
/** Failure-carrying wrappers shared by every module of the model. */
module Results {

  /** A value that may be absent (Python's `None` / a missing dictionary key). */
  datatype Option<+T> = None | Some(value: T)

  /** The outcome of a step that either produces a value or raises an error. */
  datatype Result<+T, +E> = Ok(value: T) | Err(error: E)
}

=== FILE: schemas.dfy ===
/**
 * The JSON Schema subset the tool table uses (`type`, `properties`,
 * `required`, `items`, as in JSON Schema 2020-12: section 6.1.1 and 6.5.3 of
 * the Validation vocabulary, sections 10.3.2.1 and 10.3.1.2 of Core), a
 * validator that lists every violation, and the two tool schemas.
 */
module Schemas {
  import opened Results
  import opened Json

  /** The primitive types the schemas name. */
  datatype JsonType = TObject | TArray | TString | TBoolean

  /** A schema restricted to the four keywords; `properties` keeps the order
      in which the schema lists them. */
  datatype Schema = Schema(
    typ: Option<JsonType>,
    properties: seq<(string, Schema)>,
    required: seq<string>,
    items: Option<Schema>)

  /** A schema with at least one keyword is a non-empty dict, hence truthy. */
  predicate HasKeywords(s: Schema) {
    s.typ.Some? || |s.properties| > 0 || |s.required| > 0 || s.items.Some?
  }

  /** The `type` keyword: a JSON object is a dict, an array a list, a
      string a str, a boolean a bool. */
  predicate HasType(j: Json, t: JsonType) {
    match t
    case TObject => j.JObject?
    case TArray => j.JArray?
    case TString => j.JString?
    case TBoolean => j.JBool?
  }

  /** Where in the instance a violation sits. */
  datatype PathElem = Key(name: string) | Index(index: nat)

  datatype Problem = WrongType(expected: JsonType) | MissingProperty(name: string)

  datatype Violation = Violation(at: seq<PathElem>, problem: Problem)

  /** Violations found inside a member, re-rooted at the enclosing value. */
  function Under(e: PathElem, vs: seq<Violation>): (r: seq<Violation>)
    ensures |r| == |vs|
    ensures forall i :: 0 <= i < |vs| ==> r[i] == Violation([e] + vs[i].at, vs[i].problem)
  {
    if |vs| == 0 then [] else [Violation([e] + vs[0].at, vs[0].problem)] + Under(e, vs[1..])
  }

  // ---------------------------------------------------------------------
  // Reference semantics: what it means for an instance to satisfy a schema

  /** `j` satisfies `s`: the type matches; in an object, each listed property
      that is present satisfies its subschema and each required name is
      present; in an array, every element satisfies `items`. Keywords that
      do not apply to the instance's type impose nothing. */
  predicate Conforms(s: Schema, j: Json)
    decreases s
  {
    && (s.typ.Some? ==> HasType(j, s.typ.value))
    && (j.JObject? ==>
          forall i :: 0 <= i < |s.properties| && s.properties[i].0 in j.fields ==>
            Conforms(s.properties[i].1, j.fields[s.properties[i].0]))
    && (j.JObject? ==> forall i :: 0 <= i < |s.required| ==> s.required[i] in j.fields)
    && (j.JArray? && s.items.Some? ==>
          forall i :: 0 <= i < |j.elems| ==> Conforms(s.items.value, j.elems[i]))
  }

  // ---------------------------------------------------------------------
  // The validator: every violation, keyword by keyword

  function TypeErrors(s: Schema, j: Json): seq<Violation> {
    if s.typ.Some? && !HasType(j, s.typ.value) then [Violation([], WrongType(s.typ.value))] else []
  }

  function RequiredErrors(required: seq<string>, fields: map<string, Json>): seq<Violation>
  {
    if |required| == 0 then []
    else
      (if required[0] in fields then [] else [Violation([], MissingProperty(required[0]))])
      + RequiredErrors(required[1..], fields)
  }

  /** All violations of `s` by `j`, in keyword order: `type`, `properties`,
      `required`, `items`. The instance is valid when the list is empty. */
  function Errors(s: Schema, j: Json): seq<Violation>
    decreases s, 1, 0
  {
    TypeErrors(s, j)
    + (if j.JObject? then PropertyErrors(s, j.fields, 0) + RequiredErrors(s.required, j.fields) else [])
    + (if j.JArray? && s.items.Some? then ItemErrors(s.items.value, j.elems, 0) else [])
  }

  /** Violations inside the present properties listed from index `i` on. */
  function PropertyErrors(s: Schema, fields: map<string, Json>, i: nat): seq<Violation>
    requires i <= |s.properties|
    decreases s, 0, |s.properties| - i
  {
    if i == |s.properties| then []
    else
      var name := s.properties[i].0;
      (if name in fields then Under(Key(name), Errors(s.properties[i].1, fields[name])) else [])
      + PropertyErrors(s, fields, i + 1)
  }

  /** Violations of `t` by the elements from index `i` on. */
  function ItemErrors(t: Schema, elems: seq<Json>, i: nat): seq<Violation>
    requires i <= |elems|
    decreases t, 2, |elems| - i
  {
    if i == |elems| then []
    else Under(Index(i), Errors(t, elems[i])) + ItemErrors(t, elems, i + 1)
  }

  // ---------------------------------------------------------------------
  // The validator agrees with the reference semantics

  lemma {:induction false} RequiredErrorsEmpty(required: seq<string>, fields: map<string, Json>)
    ensures RequiredErrors(required, fields) == [] <==>
            forall i :: 0 <= i < |required| ==> required[i] in fields
    decreases |required|
  {
    if |required| > 0 {
      RequiredErrorsEmpty(required[1..], fields);
      assert forall i :: 1 <= i < |required| ==> required[i] == required[1..][i - 1];
    }
  }

  lemma {:induction false} PropertyErrorsEmpty(s: Schema, fields: map<string, Json>, i: nat)
    requires i <= |s.properties|
    ensures PropertyErrors(s, fields, i) == [] <==>
            forall m :: i <= m < |s.properties| && s.properties[m].0 in fields ==>
              Conforms(s.properties[m].1, fields[s.properties[m].0])
    decreases s, 0, |s.properties| - i
  {
    if i < |s.properties| {
      var name := s.properties[i].0;
      if name in fields {
        ErrorsEmptyIffConforms(s.properties[i].1, fields[name]);
      }
      PropertyErrorsEmpty(s, fields, i + 1);
    }
  }

  lemma {:induction false} ItemErrorsEmpty(t: Schema, elems: seq<Json>, i: nat)
    requires i <= |elems|
    ensures ItemErrors(t, elems, i) == [] <==> forall m :: i <= m < |elems| ==> Conforms(t, elems[m])
    decreases t, 2, |elems| - i
  {
    if i < |elems| {
      ErrorsEmptyIffConforms(t, elems[i]);
      ItemErrorsEmpty(t, elems, i + 1);
    }
  }

  /** The validator reports no violation exactly when the instance conforms. */
  lemma {:induction false} ErrorsEmptyIffConforms(s: Schema, j: Json)
    ensures Errors(s, j) == [] <==> Conforms(s, j)
    decreases s, 1, 0
  {
    if j.JObject? {
      PropertyErrorsEmpty(s, j.fields, 0);
      RequiredErrorsEmpty(s.required, j.fields);
    }
    if j.JArray? && s.items.Some? {
      ItemErrorsEmpty(s.items.value, j.elems, 0);
    }
  }

  // ---------------------------------------------------------------------
  // The tool schemas

  const StringSchema: Schema := Schema(Some(TString), [], [], None)
  const BooleanSchema: Schema := Schema(Some(TBoolean), [], [], None)
  const StringArraySchema: Schema := Schema(Some(TArray), [], [], Some(StringSchema))

  /** `update_file`: an object with string `path` and `content` (required)
      and a boolean `overwrite`. */
  const UpdateFileSchema: Schema :=
    Schema(Some(TObject),
           [("path", StringSchema), ("content", StringSchema), ("overwrite", BooleanSchema)],
           ["path", "content"], None)

  /** `create_user`: an object with a string `username` and an array of
      strings `roles`, both required. */
  const CreateUserSchema: Schema :=
    Schema(Some(TObject),
           [("username", StringSchema), ("roles", StringArraySchema)],
           ["username", "roles"], None)

  /** `TOOL_SCHEMAS`. */
  const ToolSchemas: map<string, Schema> :=
    map["update_file" := UpdateFileSchema, "create_user" := CreateUserSchema]

  /** The argument shape `update_file` accepts: `path` and `content` present
      as strings, `overwrite` a boolean if present, other keys free. */
  predicate UpdateFileShape(j: Json) {
    && j.JObject?
    && "path" in j.fields && j.fields["path"].JString?
    && "content" in j.fields && j.fields["content"].JString?
    && ("overwrite" in j.fields ==> j.fields["overwrite"].JBool?)
  }

  /** The argument shape `create_user` accepts: a string `username` and an
      array `roles` whose every element is a string, other keys free. */
  predicate CreateUserShape(j: Json) {
    && j.JObject?
    && "username" in j.fields && j.fields["username"].JString?
    && "roles" in j.fields && j.fields["roles"].JArray?
    && forall i :: 0 <= i < |j.fields["roles"].elems| ==> j.fields["roles"].elems[i].JString?
  }

  lemma ConformsString(j: Json)
    ensures Conforms(StringSchema, j) <==> j.JString?
  {
  }

  lemma ConformsBoolean(j: Json)
    ensures Conforms(BooleanSchema, j) <==> j.JBool?
  {
  }

  lemma ConformsStringArray(j: Json)
    ensures Conforms(StringArraySchema, j) <==>
            j.JArray? && forall i :: 0 <= i < |j.elems| ==> j.elems[i].JString?
  {
    if j.JArray? {
      forall i | 0 <= i < |j.elems| {
        ConformsString(j.elems[i]);
      }
    }
  }

  /** `update_file` arguments validate exactly when they have its shape. */
  lemma UpdateFileArgsValid(j: Json)
    ensures Errors(UpdateFileSchema, j) == [] <==> UpdateFileShape(j)
  {
    ErrorsEmptyIffConforms(UpdateFileSchema, j);
    if j.JObject? {
      var f := j.fields;
      var ps := UpdateFileSchema.properties;
      assert ps[0] == ("path", StringSchema) && ps[1] == ("content", StringSchema);
      assert ps[2] == ("overwrite", BooleanSchema);
      if "path" in f { ConformsString(f["path"]); }
      if "content" in f { ConformsString(f["content"]); }
      if "overwrite" in f { ConformsBoolean(f["overwrite"]); }
      assert UpdateFileSchema.required[0] == "path" && UpdateFileSchema.required[1] == "content";
    }
  }

  /** `create_user` arguments validate exactly when they have its shape. */
  lemma CreateUserArgsValid(j: Json)
    ensures Errors(CreateUserSchema, j) == [] <==> CreateUserShape(j)
  {
    ErrorsEmptyIffConforms(CreateUserSchema, j);
    if j.JObject? {
      var f := j.fields;
      var ps := CreateUserSchema.properties;
      assert ps[0] == ("username", StringSchema) && ps[1] == ("roles", StringArraySchema);
      if "username" in f { ConformsString(f["username"]); }
      if "roles" in f { ConformsStringArray(f["roles"]); }
      assert CreateUserSchema.required[0] == "username" && CreateUserSchema.required[1] == "roles";
    }
  }

  /** Both schemas demand an object: any other instance fails, and the first
      violation reported is the type mismatch at the top. */
  lemma NonObjectArgsRejected(j: Json)
    requires !j.JObject?
    ensures Errors(UpdateFileSchema, j) == [Violation([], WrongType(TObject))]
    ensures Errors(CreateUserSchema, j) == [Violation([], WrongType(TObject))]
  {
  }

  /** No `additionalProperties`: a key the schema does not list changes
      nothing in what is reported. */
  lemma ExtraKeysIgnored(fields: map<string, Json>, key: string, v: Json)
    requires key !in {"path", "content", "overwrite", "username", "roles"}
    ensures Errors(UpdateFileSchema, JObject(fields[key := v])) == [] <==>
            Errors(UpdateFileSchema, JObject(fields)) == []
    ensures Errors(CreateUserSchema, JObject(fields[key := v])) == [] <==>
            Errors(CreateUserSchema, JObject(fields)) == []
  {
    UpdateFileArgsValid(JObject(fields[key := v]));
    UpdateFileArgsValid(JObject(fields));
    CreateUserArgsValid(JObject(fields[key := v]));
    CreateUserArgsValid(JObject(fields));
  }

  /** `items` constrains each element and sets no minimum length, so an
      empty `roles` array validates. */
  lemma EmptyRolesValid(username: string)
    ensures Errors(CreateUserSchema, JObject(map["username" := JString(username), "roles" := JArray([])])) == []
  {
    CreateUserArgsValid(JObject(map["username" := JString(username), "roles" := JArray([])]));
  }
}

=== FILE: strings.dfy ===
/**
 * The Python `str` operations the pipeline relies on: `strip()`,
 * `lstrip(c)`, `startswith`, `split(sep)` and `sep.join(parts)`.
 */
module Strings {
  import opened Results

  /** `str.isspace()` for one character: the characters `str.strip()` with
      no argument removes (ASCII whitespace, the information separators
      U+001C..U+001F, and the Unicode space and line/paragraph separators). */
  predicate IsSpace(c: char) {
    || c == ' '
    || ('\U{9}' <= c <= '\U{D}')
    || ('\U{1C}' <= c <= '\U{1F}')
    || c == '\U{85}' || c == '\U{A0}' || c == '\U{1680}'
    || ('\U{2000}' <= c <= '\U{200A}')
    || c == '\U{2028}' || c == '\U{2029}' || c == '\U{202F}'
    || c == '\U{205F}' || c == '\U{3000}'
  }

  predicate AllSpace(s: string) {
    forall i :: 0 <= i < |s| ==> IsSpace(s[i])
  }

  /** Neither end of `s` is whitespace (vacuous for the empty string). */
  predicate Trimmed(s: string) {
    |s| > 0 ==> !IsSpace(s[0]) && !IsSpace(s[|s| - 1])
  }

  predicate StartsWith(s: string, prefix: string) {
    |prefix| <= |s| && s[..|prefix|] == prefix
  }

  /** Every character of `s` in the index range `[lo, hi)` is whitespace. */
  predicate SpacesBetween(s: string, lo: int, hi: int) {
    forall i :: 0 <= lo <= i < hi <= |s| ==> IsSpace(s[i])
  }

  /** Length of the longest all-whitespace prefix of `s`. */
  function LeadingSpaces(s: string): (n: nat)
    ensures n <= |s|
    ensures SpacesBetween(s, 0, n)
    ensures n < |s| ==> !IsSpace(s[n])
  {
    if |s| > 0 && IsSpace(s[0]) then 1 + LeadingSpaces(s[1..]) else 0
  }

  /** Length of the longest all-whitespace suffix of `s`. */
  function TrailingSpaces(s: string): (n: nat)
    ensures n <= |s|
    ensures SpacesBetween(s, |s| - n, |s|)
    ensures n < |s| ==> !IsSpace(s[|s| - n - 1])
  {
    if |s| > 0 && IsSpace(s[|s| - 1]) then 1 + TrailingSpaces(s[..|s| - 1]) else 0
  }

  /** `s.strip()`: `s` with whitespace removed from both ends. The result is
      the infix of `s` that starts at the first non-space character and is
      followed only by whitespace. */
  function Strip(s: string): (r: string)
    ensures Trimmed(r)
    ensures LeadingSpaces(s) + |r| <= |s|
    ensures s[LeadingSpaces(s)..LeadingSpaces(s) + |r|] == r
    ensures SpacesBetween(s, 0, LeadingSpaces(s))
    ensures SpacesBetween(s, LeadingSpaces(s) + |r|, |s|)
  {
    var a := LeadingSpaces(s);
    var t := s[a..];
    var b := TrailingSpaces(t);
    SpacesOfSuffix(s, a, |t| - b);
    t[..|t| - b]
  }

  /** Whitespace found in the suffix `s[a..]` is whitespace of `s`. */
  lemma SpacesOfSuffix(s: string, a: nat, lo: nat)
    requires a <= |s| && lo <= |s| - a
    requires SpacesBetween(s[a..], lo, |s| - a)
    ensures SpacesBetween(s, a + lo, |s|)
  {
    assert forall i :: a + lo <= i < |s| ==> s[i] == s[a..][i - a];
  }

  /** The leading-whitespace count is pinned down by its contract. */
  lemma LeadingSpacesExact(s: string, n: nat)
    requires n <= |s| && SpacesBetween(s, 0, n)
    requires n < |s| ==> !IsSpace(s[n])
    ensures LeadingSpaces(s) == n
  {
  }

  /** Two trimmed infixes starting at `a`, each followed only by whitespace,
      have the same length. */
  lemma TrimmedInfixUnique(s: string, a: nat, m1: nat, m2: nat)
    requires a + m1 <= |s| && a + m2 <= |s|
    requires Trimmed(s[a..a + m1]) && SpacesBetween(s, a + m1, |s|)
    requires Trimmed(s[a..a + m2]) && SpacesBetween(s, a + m2, |s|)
    ensures m1 == m2
  {
    assert m1 > 0 ==> s[a..a + m1][m1 - 1] == s[a + m1 - 1];
    assert m2 > 0 ==> s[a..a + m2][m2 - 1] == s[a + m2 - 1];
  }

  /** Strip is determined by its characterisation: whatever whitespace
      surrounds a trimmed string, stripping recovers exactly that string. */
  lemma {:induction false} StripRecovers(p: string, t: string, q: string)
    requires AllSpace(p) && AllSpace(q) && Trimmed(t)
    ensures Strip(p + t + q) == t
  {
    var s := p + t + q;
    var r := Strip(s);
    assert s[|p|..|p| + |t|] == t;
    assert forall i :: 0 <= i < |p| ==> s[i] == p[i];
    assert forall i :: |p| + |t| <= i < |s| ==> s[i] == q[i - |p| - |t|];
    if |t| == 0 {
      LeadingSpacesExact(s, |s|);
    } else {
      assert s[|p|] == t[0];
      LeadingSpacesExact(s, |p|);
      TrimmedInfixUnique(s, |p|, |r|, |t|);
    }
  }

  /** `s.lstrip(c)`: `s` with every leading `c` removed. */
  function LStrip(s: string, c: char): (r: string)
    ensures |r| <= |s|
    ensures s[|s| - |r|..] == r
    ensures forall i :: 0 <= i < |s| - |r| ==> s[i] == c
    ensures |r| > 0 ==> r[0] != c
  {
    if |s| > 0 && s[0] == c then LStrip(s[1..], c) else s
  }

  /** `sep` occurs in `s` starting at index `i`. */
  predicate OccursAt(s: string, sep: string, i: nat) {
    i + |sep| <= |s| && s[i..i + |sep|] == sep
  }

  /** `sep` occurs nowhere in `s`. */
  predicate Free(s: string, sep: string) {
    forall i: nat :: i + |sep| <= |s| ==> !OccursAt(s, sep, i)
  }

  /** `s.find(sep)`: the index of the leftmost occurrence of `sep`. */
  function Find(s: string, sep: string): (r: Option<nat>)
    requires |sep| > 0
    ensures r.Some? ==> OccursAt(s, sep, r.value)
    ensures r.Some? ==> forall i: nat :: i < r.value ==> !OccursAt(s, sep, i)
    ensures r.None? ==> Free(s, sep)
    decreases |s|
  {
    if |s| < |sep| then None
    else if s[..|sep|] == sep then Some(0)
    else
      match Find(s[1..], sep)
      case None =>
        forall i: nat | 1 <= i ensures OccursAt(s, sep, i) == OccursAt(s[1..], sep, i - 1) {
          ShiftOccurrence(s, sep, i);
        }
        None
      case Some(k) =>
        ShiftOccurrence(s, sep, k + 1);
        forall i: nat | 1 <= i <= k ensures OccursAt(s, sep, i) == OccursAt(s[1..], sep, i - 1) {
          ShiftOccurrence(s, sep, i);
        }
        Some(k + 1)
  }

  /** An occurrence at `i >= 1` in `s` is an occurrence at `i - 1` in `s[1..]`. */
  lemma ShiftOccurrence(s: string, sep: string, i: nat)
    requires 1 <= i && 1 <= |s|
    ensures OccursAt(s, sep, i) == OccursAt(s[1..], sep, i - 1)
  {
    if i + |sep| <= |s| {
      var a := s[i..i + |sep|];
      var b := s[1..][i - 1..i - 1 + |sep|];
      assert |a| == |b|;
      assert forall j :: 0 <= j < |a| ==> a[j] == s[i + j] == b[j];
      assert a == b;
    }
  }

  /** An occurrence inside a prefix of `s` is an occurrence in `s`. */
  lemma PrefixOccurrence(s: string, n: nat, sep: string, j: nat)
    requires n <= |s|
    ensures OccursAt(s[..n], sep, j) ==> OccursAt(s, sep, j)
  {
    if j + |sep| <= n {
      assert s[..n][j..j + |sep|] == s[j..j + |sep|];
    }
  }

  /** `sep.join(parts)`. */
  function Join(parts: seq<string>, sep: string): string
  {
    if |parts| == 0 then ""
    else if |parts| == 1 then parts[0]
    else parts[0] + sep + Join(parts[1..], sep)
  }

  /** `s.split(sep)` for a non-empty separator (Python raises ValueError on
      an empty one): cut `s` at each leftmost, non-overlapping occurrence of
      `sep`. The pieces contain no separator and joining them back with
      `sep` gives `s` again. */
  function Split(s: string, sep: string): (parts: seq<string>)
    requires |sep| > 0
    ensures |parts| >= 1
    ensures forall k :: 0 <= k < |parts| ==> Free(parts[k], sep)
    ensures Join(parts, sep) == s
    ensures forall k :: 0 <= k < |parts| - 1 ==> Find(Join(parts[k..], sep), sep) == Some(|parts[k]|)
    decreases |s|
  {
    match Find(s, sep)
    case None => [s]
    case Some(i) =>
      var rest := Split(s[i + |sep|..], sep);
      SplitStep(s, sep, i, rest);
      [s[..i]] + rest
  }

  /** One cut of `Split`: the text before the leftmost separator, then the
      pieces of what follows it. */
  lemma SplitStep(s: string, sep: string, i: nat, rest: seq<string>)
    requires |sep| > 0 && Find(s, sep) == Some(i)
    requires |rest| >= 1
    requires forall k :: 0 <= k < |rest| ==> Free(rest[k], sep)
    requires Join(rest, sep) == s[i + |sep|..]
    requires forall k :: 0 <= k < |rest| - 1 ==> Find(Join(rest[k..], sep), sep) == Some(|rest[k]|)
    ensures forall k :: 0 <= k < |[s[..i]] + rest| ==> Free(([s[..i]] + rest)[k], sep)
    ensures Join([s[..i]] + rest, sep) == s
    ensures forall k :: 0 <= k < |[s[..i]] + rest| - 1 ==>
              Find(Join(([s[..i]] + rest)[k..], sep), sep) == Some(|([s[..i]] + rest)[k]|)
  {
    SplitStepFree(s, sep, i, rest);
    SplitStepJoin(s, sep, i, rest);
    CutsOfCons(s[..i], rest, sep);
  }

  lemma SplitStepFree(s: string, sep: string, i: nat, rest: seq<string>)
    requires |sep| > 0 && Find(s, sep) == Some(i)
    requires forall k :: 0 <= k < |rest| ==> Free(rest[k], sep)
    ensures forall k :: 0 <= k < |[s[..i]] + rest| ==> Free(([s[..i]] + rest)[k], sep)
  {
    var head := s[..i];
    forall j: nat | j + |sep| <= |head| ensures !OccursAt(head, sep, j) {
      PrefixOccurrence(s, i, sep, j);
    }
  }

  lemma SplitStepJoin(s: string, sep: string, i: nat, rest: seq<string>)
    requires OccursAt(s, sep, i)
    requires |rest| >= 1 && Join(rest, sep) == s[i + |sep|..]
    ensures Join([s[..i]] + rest, sep) == s
  {
    CutAt(s, sep, i);
    JoinCons(s[..i], rest, sep);
  }

  /** An occurrence of `sep` cuts `s` into what precedes it, `sep` and what follows. */
  lemma CutAt(s: string, sep: string, i: nat)
    requires OccursAt(s, sep, i)
    ensures s == s[..i] + sep + s[i + |sep|..]
  {
    assert s == s[..i] + s[i..i + |sep|] + s[i + |sep|..];
  }

  lemma JoinCons(head: string, rest: seq<string>, sep: string)
    requires |rest| >= 1
    ensures Join([head] + rest, sep) == head + sep + Join(rest, sep)
  {
    assert ([head] + rest)[1..] == rest;
  }

  /** Every cut of `[head] + rest` is at the leftmost separator when the
      first one is and every cut of `rest` is. */
  lemma CutsOfCons(head: string, rest: seq<string>, sep: string)
    requires |sep| > 0
    requires |rest| >= 1 ==> Find(Join([head] + rest, sep), sep) == Some(|head|)
    requires forall k :: 0 <= k < |rest| - 1 ==> Find(Join(rest[k..], sep), sep) == Some(|rest[k]|)
    ensures var parts := [head] + rest;
            forall k :: 0 <= k < |parts| - 1 ==> Find(Join(parts[k..], sep), sep) == Some(|parts[k]|)
  {
    var parts := [head] + rest;
    forall k | 0 <= k < |parts| - 1
      ensures Find(Join(parts[k..], sep), sep) == Some(|parts[k]|)
    {
      if k == 0 {
        assert parts[k..] == parts;
      } else {
        assert parts[k..] == rest[k - 1..];
      }
    }
  }

  /** When `s` begins with `sep`, the first piece is empty and the second is
      the text up to the next occurrence of `sep` (or the end). */
  lemma SplitAfterLeadingSeparator(s: string, sep: string)
    requires |sep| > 0 && StartsWith(s, sep)
    ensures |Split(s, sep)| >= 2
    ensures Split(s, sep)[0] == ""
    ensures Split(s, sep)[1] == FirstPiece(s[|sep|..], sep)
  {
    assert OccursAt(s, sep, 0);
  }

  /** The text of `s` before the first occurrence of `sep`, or all of `s`. */
  function FirstPiece(s: string, sep: string): (r: string)
    requires |sep| > 0
    ensures StartsWith(s, r)
    ensures Free(r, sep)
    ensures |r| == |s| || OccursAt(s, sep, |r|)
  {
    match Find(s, sep)
    case None => s
    case Some(i) =>
      assert Free(s[..i], sep) by {
        forall j: nat | j + |sep| <= i ensures !OccursAt(s[..i], sep, j) {
          PrefixOccurrence(s, i, sep, j);
        }
      }
      s[..i]
  }

  /** The first piece `Split` produces is `FirstPiece`. */
  lemma SplitHead(s: string, sep: string)
    requires |sep| > 0
    ensures Split(s, sep)[0] == FirstPiece(s, sep)
  {
  }

  /** Splitting a joined list of separator-free pieces on a one-character
      separator gives the pieces back. */
  lemma {:induction false} SplitJoin(parts: seq<string>, c: char)
    requires |parts| >= 1
    requires forall k :: 0 <= k < |parts| ==> c !in parts[k]
    ensures Split(Join(parts, [c]), [c]) == parts
    decreases |parts|
  {
    var s := Join(parts, [c]);
    var p := parts[0];
    if |parts| == 1 {
      NoCharNoOccurrence(p, c);
    } else {
      var tail := Join(parts[1..], [c]);
      assert s == p + [c] + tail;
      FirstOccurrenceAfter(p, tail, c);
      assert s[..|p|] == p;
      assert s[|p| + 1..] == tail;
      SplitJoin(parts[1..], c);
      assert parts == [p] + parts[1..];
    }
  }

  /** A text without the character contains no occurrence of it. */
  lemma NoCharNoOccurrence(s: string, c: char)
    requires c !in s
    ensures Find(s, [c]) == None
  {
    assert Free(s, [c]) by {
      forall i: nat | i + 1 <= |s| ensures !OccursAt(s, [c], i) {
        assert s[i] in s;
      }
    }
  }

  /** In `p + [c] + tail` with no `c` in `p`, the first `c` is right after `p`. */
  lemma FirstOccurrenceAfter(p: string, tail: string, c: char)
    requires c !in p
    ensures Find(p + [c] + tail, [c]) == Some(|p|)
  {
    var s := p + [c] + tail;
    assert OccursAt(s, [c], |p|);
    forall i: nat | i < |p| ensures !OccursAt(s, [c], i) {
      assert s[i] == p[i];
      assert s[i..i + 1] == [s[i]];
    }
  }

  // ---------------------------------------------------------------------
  // Picking one element of a set of strings

  /** Lexicographic order on code points. */
  predicate LexLe(a: string, b: string)
    decreases |a|
  {
    |a| == 0 || (|b| > 0 && (a[0] < b[0] || (a[0] == b[0] && LexLe(a[1..], b[1..]))))
  }

  lemma {:induction false} LexTotal(a: string, b: string)
    ensures LexLe(a, b) || LexLe(b, a)
    decreases |a|
  {
    if |a| > 0 && |b| > 0 && a[0] == b[0] {
      LexTotal(a[1..], b[1..]);
    }
  }

  lemma {:induction false} LexAntisymmetric(a: string, b: string)
    requires LexLe(a, b) && LexLe(b, a)
    ensures a == b
    decreases |a|
  {
    if |a| > 0 {
      LexAntisymmetric(a[1..], b[1..]);
      assert a == [a[0]] + a[1..] && b == [b[0]] + b[1..];
    }
  }

  lemma {:induction false} LexTransitive(a: string, b: string, c: string)
    requires LexLe(a, b) && LexLe(b, c)
    ensures LexLe(a, c)
    decreases |a|
  {
    if |a| > 0 && a[0] == b[0] && b[0] == c[0] {
      LexTransitive(a[1..], b[1..], c[1..]);
    }
  }

  /** `m` is in `s` and no element of `s` comes before it. */
  predicate IsLeast(m: string, s: set<string>) {
    m in s && forall y :: y in s ==> LexLe(m, y)
  }

  /** Every non-empty finite set of strings has a least element. */
  lemma {:induction false} LeastExists(s: set<string>) returns (m: string)
    requires s != {}
    ensures IsLeast(m, s)
    decreases |s|
  {
    var x :| x in s;
    if s == {x} {
      LexTotal(x, x);
      m := x;
    } else {
      var m' := LeastExists(s - {x});
      LexTotal(x, m');
      if LexLe(x, m') {
        forall y | y in s ensures LexLe(x, y) {
          if y == x { LexTotal(x, x); } else { LexTransitive(x, m', y); }
        }
        m := x;
      } else {
        m := m';
      }
    }
  }

  lemma HasLeast(s: set<string>)
    requires s != {}
    ensures exists m :: IsLeast(m, s)
  {
    var m := LeastExists(s);
  }

  /** A set has at most one least element. */
  lemma LeastUnique(s: set<string>)
    ensures forall m1, m2 :: IsLeast(m1, s) && IsLeast(m2, s) ==> m1 == m2
  {
    forall m1, m2 | IsLeast(m1, s) && IsLeast(m2, s) ensures m1 == m2 {
      LexAntisymmetric(m1, m2);
    }
  }

  /** The least element of a non-empty set of strings. */
  function Least(s: set<string>): (r: string)
    requires s != {}
    ensures r in s
    ensures forall y :: y in s ==> LexLe(r, y)
  {
    HasLeast(s);
    LeastUnique(s);
    var m :| IsLeast(m, s);
    m
  }
}

=== FILE: tools.dfy ===
/**
 * The tool registry and its two handlers. The filesystem is a map from
 * normalised paths to nodes, the users file a map from usernames to
 * records (absent when the file does not exist), and the environment
 * (current directory, `WORKSPACE_DIR`) is passed in.
 */
module Tools {
  import opened Results
  import opened Json
  import opened Strings
  import opened Paths

  /** The registered callables. */
  datatype Tool = UpdateFile | CreateUser

  /** The `register(name)` decorator: bind `name` to `fn`. */
  function Register(registry: map<string, Tool>, name: string, fn: Tool): (r: map<string, Tool>)
    ensures r.Keys == registry.Keys + {name}
    ensures r[name] == fn
    ensures forall n :: n in registry && n != name ==> r[n] == registry[n]
  {
    registry[name := fn]
  }

  /** `TOOL_REGISTRY` once the module has been loaded. */
  const Registry: map<string, Tool> :=
    Register(Register(map[], "update_file", UpdateFile), "create_user", CreateUser)

  /** After loading, the registry holds exactly the two decorated handlers. */
  lemma RegistryContents()
    ensures Registry.Keys == {"update_file", "create_user"}
    ensures Registry["update_file"] == UpdateFile && Registry["create_user"] == CreateUser
  {
  }

  // ---------------------------------------------------------------------
  // State and environment

  datatype Node = File(content: string) | Directory

  datatype State = State(files: map<string, Node>, users: Option<map<string, Json>>)

  /** The process's current directory and the `WORKSPACE_DIR` variable. */
  datatype Env = Env(cwd: string, workspaceVar: Option<string>)

  const DefaultWorkspace: string := "/srv/llm_workspace"

  /** Handler failures: the handlers' own ValueErrors, a TypeError raised
      while binding `**args` to the handler's parameters, or the OS refusing
      to open a directory for writing. */
  datatype HandlerError =
    | ValueError(message: string)
    | TypeError(problem: BindProblem)
    | IsADirectory(path: string)
      /** A non-string where the handler works on a string. Schema validation
          rules this out before any call; the model stops here rather than
          follow the handler further. */
    | UnvalidatedArgument(parameter: string)

  datatype BindProblem =
    | NotAMapping
      /** "got an unexpected keyword argument": one of the offending keys. */
    | UnexpectedKeyword(name: string)
      /** "missing required positional argument(s)": all of them. */
    | MissingArguments(names: set<string>)

  const PathOutsideWorkspace: string := "path outside workspace"
  const FileExistsNoOverwrite: string := "file exists and overwrite is false"
  const UserExists: string := "user exists"
  /** Python's message when a path handed to the OS contains a NUL character. */
  const EmbeddedNullByte: string := "embedded null byte"

  // ---------------------------------------------------------------------
  // update_file

  /** `os.environ.get('WORKSPACE_DIR', '/srv/llm_workspace')`. */
  function WorkspaceDir(env: Env): string {
    match env.workspaceVar
    case Some(d) => d
    case None => DefaultWorkspace
  }

  /** What `abspath` normalises for the workspace directory. */
  function BaseInput(env: Env): string {
    var b := WorkspaceDir(env);
    if IsAbs(b) then b else PosixJoin(env.cwd, b)
  }

  /** `abs_base`. */
  function WorkspaceBase(env: Env): (r: string)
    ensures IsAbs(env.cwd) ==> IsAbs(r)
  {
    AbsPath(env.cwd, WorkspaceDir(env))
  }

  /** `joined`: leading slashes stripped from `path`, the rest joined onto
      `abs_base` and normalised. */
  function Target(env: Env, path: string): (r: string)
    ensures IsAbs(env.cwd) ==> IsAbs(r)
  {
    AbsPath(env.cwd, PosixJoin(WorkspaceBase(env), LStrip(path, '/')))
  }

  /** `update_file(path, content, overwrite)`. A target containing NUL does
      not exist as far as `os.path.exists` is concerned, and the call that
      hands it to the OS raises ValueError before anything is written. */
  function UpdateFileHandler(env: Env, st: State, path: string, content: string, overwrite: Json)
    : (r: (Result<Json, HandlerError>, State))
    ensures r.0.Ok? ==> StartsWith(Target(env, path), WorkspaceBase(env))
    ensures !StartsWith(Target(env, path), WorkspaceBase(env)) ==>
              r == (Err(ValueError(PathOutsideWorkspace)), st)
    ensures r.0 == Err(ValueError(PathOutsideWorkspace)) ==> !StartsWith(Target(env, path), WorkspaceBase(env))
    ensures (StartsWith(Target(env, path), WorkspaceBase(env)) && '\0' in Target(env, path)) ==>
              r == (Err(ValueError(EmbeddedNullByte)), st)
    ensures (StartsWith(Target(env, path), WorkspaceBase(env)) && '\0' !in Target(env, path)
             && Target(env, path) in st.files && !Truthy(overwrite)) ==>
              r == (Err(ValueError(FileExistsNoOverwrite)), st)
    ensures (StartsWith(Target(env, path), WorkspaceBase(env)) && '\0' !in Target(env, path)
             && Target(env, path) in st.files && Truthy(overwrite) && st.files[Target(env, path)].Directory?) ==>
              r == (Err(IsADirectory(Target(env, path))), st)
    ensures (StartsWith(Target(env, path), WorkspaceBase(env)) && '\0' !in Target(env, path)
             && (Target(env, path) !in st.files
                 || (Truthy(overwrite) && st.files[Target(env, path)].File?))) ==> r.0.Ok?
    ensures r.0.Err? ==> r.1 == st
    ensures r.0.Ok? ==> '\0' !in Target(env, path)
    ensures r.0.Ok? ==> r.1.users == st.users
    ensures r.0.Ok? ==> r.1.files.Keys == st.files.Keys + {Target(env, path)}
    ensures r.0.Ok? ==> r.1.files[Target(env, path)] == File(content)
    ensures r.0.Ok? ==> forall p :: p in st.files && p != Target(env, path) ==> r.1.files[p] == st.files[p]
    ensures r.0.Ok? ==> r.0.value == JObject(map["path" := JString(Target(env, path)), "status" := JString("written")])
  {
    var absBase := WorkspaceBase(env);
    var joined := Target(env, path);
    if !StartsWith(joined, absBase) then (Err(ValueError(PathOutsideWorkspace)), st)
    else if '\0' in joined then (Err(ValueError(EmbeddedNullByte)), st)
    else if joined in st.files && !Truthy(overwrite) then (Err(ValueError(FileExistsNoOverwrite)), st)
    else if joined in st.files && st.files[joined].Directory? then (Err(IsADirectory(joined)), st)
    else
      (Ok(JObject(map["path" := JString(joined), "status" := JString("written")])),
       st.(files := st.files[joined := File(content)]))
  }

  // ---------------------------------------------------------------------
  // What the workspace check admits

  /** The normalised workspace directory as leading slashes and components. */
  function BaseParts(env: Env): Normal {
    NormParts(BaseInput(env))
  }

  /** The components `joined` resolves to: normpath's loop over the
      components of the stripped `path`, starting from the workspace's. */
  function TargetComps(env: Env, path: string): seq<string> {
    Fold(BaseParts(env).comps, Split(LStrip(path, '/'), "/"), true)
  }

  lemma BaseInputAbsolute(env: Env)
    requires IsAbs(env.cwd)
    ensures IsAbs(BaseInput(env))
  {
    var b := WorkspaceDir(env);
    if !IsAbs(b) {
      assert PosixJoin(env.cwd, b)[..1] == env.cwd[..1];
    }
  }

  /** With an absolute current directory, `abs_base` and `joined` are both
      normalised absolute paths with the same leading slashes; `joined`'s
      components are the relative path resolved against the base's. */
  lemma TargetShape(env: Env, path: string)
    requires IsAbs(env.cwd)
    ensures 1 <= BaseParts(env).slashes <= 2
    ensures Canonical(BaseParts(env).comps) && Canonical(TargetComps(env, path))
    ensures WorkspaceBase(env) == Render(BaseParts(env).slashes, BaseParts(env).comps)
    ensures Target(env, path) == Render(BaseParts(env).slashes, TargetComps(env, path))
  {
    BaseInputAbsolute(env);
    NormalizedShape(BaseInput(env));
    var n := BaseParts(env);
    var rel := LStrip(path, '/');
    assert !IsAbs(rel) by {
      if |rel| > 0 { assert rel[..1] == [rel[0]]; }
    }
    var whole := PosixJoin(Render(n.slashes, n.comps), rel);
    ResolveAgainstBase(n.slashes, n.comps, rel);
    JoinedPieces(n.slashes, n.comps, rel);
    NormalizedShape(whole);
  }

  /** The check is on characters, not components: a path passes exactly when
      it resolves to the workspace itself, to something below it, or to a
      sibling whose last name extends the workspace's last name. */
  lemma UpdateFileConfinement(env: Env, st: State, path: string, content: string, overwrite: Json)
    requires IsAbs(env.cwd)
    ensures UpdateFileHandler(env, st, path, content, overwrite).0 == Err(ValueError(PathOutsideWorkspace))
            <==> !(ComponentPrefix(BaseParts(env).comps, TargetComps(env, path))
                   || SiblingMatch(BaseParts(env).comps, TargetComps(env, path)))
  {
    PrefixCheckOnTarget(env, path);
  }

  /** The prefix test on the target, in terms of components. */
  lemma PrefixCheckOnTarget(env: Env, path: string)
    requires IsAbs(env.cwd)
    ensures StartsWith(Target(env, path), WorkspaceBase(env))
            <==> ComponentPrefix(BaseParts(env).comps, TargetComps(env, path))
                 || SiblingMatch(BaseParts(env).comps, TargetComps(env, path))
  {
    TargetShape(env, path);
    PrefixCheckExact(BaseParts(env).slashes, BaseParts(env).comps, TargetComps(env, path));
  }

  /** Without `..` components the loop only appends to what it holds. */
  lemma {:induction false} FoldWithoutParentSteps(acc: seq<string>, comps: seq<string>)
    requires forall i :: 0 <= i < |comps| ==> comps[i] != ".."
    ensures ComponentPrefix(acc, Fold(acc, comps, true))
    decreases |comps|
  {
    if |comps| > 0 {
      var next := Step(acc, comps[0], true);
      FoldWithoutParentSteps(next, comps[1..]);
      var r := Fold(next, comps[1..], true);
      assert next[..|acc|] == acc;
      assert r[..|acc|] == r[..|next|][..|acc|];
    }
  }

  /** A path with no `..` component never trips the workspace check. */
  lemma PathWithoutParentStepsAccepted(env: Env, st: State, path: string, content: string, overwrite: Json)
    requires IsAbs(env.cwd)
    requires forall i :: 0 <= i < |Split(LStrip(path, '/'), "/")| ==> Split(LStrip(path, '/'), "/")[i] != ".."
    ensures ComponentPrefix(BaseParts(env).comps, TargetComps(env, path))
    ensures UpdateFileHandler(env, st, path, content, overwrite).0 != Err(ValueError(PathOutsideWorkspace))
  {
    FoldWithoutParentSteps(BaseParts(env).comps, Split(LStrip(path, '/'), "/"));
    UpdateFileConfinement(env, st, path, content, overwrite);
  }

  /** Leading slashes are stripped before joining: an absolute path lands
      where the same path without its slashes lands, under the workspace,
      and is judged the same way. */
  lemma AbsolutePathRebased(env: Env, st: State, k: nat, path: string, content: string, overwrite: Json)
    ensures Target(env, Slashes(k) + path) == Target(env, path)
    ensures TargetComps(env, Slashes(k) + path) == TargetComps(env, path)
    ensures UpdateFileHandler(env, st, Slashes(k) + path, content, overwrite)
            == UpdateFileHandler(env, st, path, content, overwrite)
  {
    LStripSlashes(k, path);
    assert Target(env, Slashes(k) + path) == Target(env, path);
    SameTargetSameOutcome(env, st, Slashes(k) + path, path, content, overwrite);
  }

  /** The handler sees `path` only through where it resolves: two paths
      with the same target are treated alike. */
  lemma SameTargetSameOutcome(env: Env, st: State, p1: string, p2: string, content: string, overwrite: Json)
    requires Target(env, p1) == Target(env, p2)
    ensures UpdateFileHandler(env, st, p1, content, overwrite) == UpdateFileHandler(env, st, p2, content, overwrite)
  {
  }

  lemma {:induction false} LStripSlashes(k: nat, path: string)
    ensures LStrip(Slashes(k) + path, '/') == LStrip(path, '/')
    decreases k
  {
    if k > 0 {
      var rest := Slashes(k - 1) + path;
      assert Slashes(k) + path == "/" + rest;
      assert ("/" + rest)[1..] == rest;
      LStripSlashes(k - 1, path);
    } else {
      assert Slashes(k) + path == path;
    }
  }

  // ---------------------------------------------------------------------
  // The check on concrete paths, with the default workspace

  /** `WORKSPACE_DIR` unset, so the workspace is `/srv/llm_workspace`. */
  predicate DefaultWorkspaceEnv(env: Env) {
    env.workspaceVar.None? && IsAbs(env.cwd)
  }

  lemma DefaultBase(env: Env)
    requires DefaultWorkspaceEnv(env)
    ensures BaseParts(env) == Normal(1, ["srv", "llm_workspace"])
    ensures WorkspaceBase(env) == "/srv/llm_workspace"
  {
    var b := ["srv", "llm_workspace"];
    DefaultBaseText();
    NormPartsOfRender(1, b);
    TargetShape(env, "");
  }

  /** Where a path lands under the default workspace, from the facts about
      its text: what stripping leaves, its components, what the loop makes
      of them. */
  lemma DefaultTarget(env: Env, path: string, rel: string, relComps: seq<string>, comps: seq<string>, text: string)
    requires DefaultWorkspaceEnv(env)
    requires LStrip(path, '/') == rel
    requires |relComps| >= 1 && (forall i :: 0 <= i < |relComps| ==> '/' !in relComps[i])
    requires Join(relComps, "/") == rel
    requires Fold(["srv", "llm_workspace"], relComps, true) == comps
    requires "/" + Join(comps, "/") == text
    ensures TargetComps(env, path) == comps
    ensures Target(env, path) == text
  {
    DefaultComps(env, path, rel, relComps, comps);
    DefaultRender(env, path, comps, text);
  }

  lemma DefaultComps(env: Env, path: string, rel: string, relComps: seq<string>, comps: seq<string>)
    requires DefaultWorkspaceEnv(env)
    requires LStrip(path, '/') == rel
    requires |relComps| >= 1 && (forall i :: 0 <= i < |relComps| ==> '/' !in relComps[i])
    requires Join(relComps, "/") == rel
    requires Fold(["srv", "llm_workspace"], relComps, true) == comps
    ensures TargetComps(env, path) == comps
  {
    DefaultBase(env);
    SplitJoin(relComps, '/');
  }

  lemma DefaultRender(env: Env, path: string, comps: seq<string>, text: string)
    requires DefaultWorkspaceEnv(env)
    requires TargetComps(env, path) == comps
    requires "/" + Join(comps, "/") == text
    ensures Target(env, path) == text
  {
    DefaultBase(env);
    TargetShape(env, path);
  }

  /** Where the sibling path lands under the default workspace. */
  lemma SiblingTarget(env: Env)
    requires DefaultWorkspaceEnv(env)
    ensures TargetComps(env, "../llm_workspace_x/notes.txt") == ["srv", "llm_workspace_x", "notes.txt"]
    ensures Target(env, "../llm_workspace_x/notes.txt") == "/srv/llm_workspace_x/notes.txt"
  {
    SiblingJoin();
    SiblingFold();
    SiblingRender();
    DefaultTarget(env, "../llm_workspace_x/notes.txt", "../llm_workspace_x/notes.txt",
                  ["..", "llm_workspace_x", "notes.txt"], ["srv", "llm_workspace_x", "notes.txt"],
                  "/srv/llm_workspace_x/notes.txt");
  }

  /** A sibling of the workspace reached through `..` is not below the
      workspace, yet passes the check and is written. */
  lemma SiblingDirectoryAccepted(env: Env, st: State, content: string, overwrite: Json)
    requires DefaultWorkspaceEnv(env)
    requires "/srv/llm_workspace_x/notes.txt" !in st.files
    ensures Target(env, "../llm_workspace_x/notes.txt") == "/srv/llm_workspace_x/notes.txt"
    ensures !ComponentPrefix(BaseParts(env).comps, TargetComps(env, "../llm_workspace_x/notes.txt"))
    ensures SiblingMatch(BaseParts(env).comps, TargetComps(env, "../llm_workspace_x/notes.txt"))
    ensures UpdateFileHandler(env, st, "../llm_workspace_x/notes.txt", content, overwrite).0.Ok?
  {
    SiblingTarget(env);
    DefaultBase(env);
    SiblingComponents();
    SiblingPassesCheck(env);
    SiblingNulFree();
  }

  lemma SiblingComponents()
    ensures !ComponentPrefix(["srv", "llm_workspace"], ["srv", "llm_workspace_x", "notes.txt"])
    ensures SiblingMatch(["srv", "llm_workspace"], ["srv", "llm_workspace_x", "notes.txt"])
  {
    assert ["srv", "llm_workspace_x", "notes.txt"][..2] == ["srv", "llm_workspace_x"];
    assert StartsWith("llm_workspace_x", "llm_workspace");
  }

  lemma SiblingPassesCheck(env: Env)
    requires DefaultWorkspaceEnv(env)
    ensures StartsWith(Target(env, "../llm_workspace_x/notes.txt"), WorkspaceBase(env))
  {
    SiblingTarget(env);
    DefaultBase(env);
    SiblingPrefix();
  }

  /** A name with an embedded NUL passes the workspace check but is refused
      when handed to the OS: ValueError, and nothing is written. */
  lemma NulNameRejected(env: Env, st: State, content: string, overwrite: Json)
    requires DefaultWorkspaceEnv(env)
    ensures Target(env, "a\0b") == "/srv/llm_workspace/a\0b"
    ensures UpdateFileHandler(env, st, "a\0b", content, overwrite) == (Err(ValueError(EmbeddedNullByte)), st)
  {
    NulStrip();
    NulFold();
    NulRender();
    DefaultTarget(env, "a\0b", "a\0b", ["a\0b"], ["srv", "llm_workspace", "a\0b"], "/srv/llm_workspace/a\0b");
    DefaultBase(env);
    NulPrefix();
  }

  /** Climbing out of the workspace to an unrelated directory is refused and
      nothing is written, whatever `overwrite` says. */
  lemma EscapeRejected(env: Env, st: State, content: string, overwrite: Json)
    requires DefaultWorkspaceEnv(env)
    ensures Target(env, "../../etc/passwd") == "/etc/passwd"
    ensures UpdateFileHandler(env, st, "../../etc/passwd", content, overwrite)
            == (Err(ValueError(PathOutsideWorkspace)), st)
  {
    EscapeJoin();
    EscapeFold();
    EscapeRender();
    DefaultTarget(env, "../../etc/passwd", "../../etc/passwd", ["..", "..", "etc", "passwd"], ["etc", "passwd"],
                  "/etc/passwd");
    DefaultBase(env);
    EscapePrefix();
  }

  // ---------------------------------------------------------------------
  // create_user

  /** The users registry as loaded: a missing file reads as `{}`. */
  function LoadUsers(st: State): map<string, Json> {
    match st.users
    case Some(u) => u
    case None => map[]
  }

  /** `create_user(username, roles)`. */
  function CreateUserHandler(st: State, username: string, roles: Json): (r: (Result<Json, HandlerError>, State))
    ensures username in LoadUsers(st) <==> r.0.Err?
    ensures r.0.Err? ==> r == (Err(ValueError(UserExists)), st)
    ensures r.0.Ok? ==> r.1.files == st.files && r.1.users.Some?
    ensures r.0.Ok? ==> r.1.users.value.Keys == LoadUsers(st).Keys + {username}
    ensures r.0.Ok? ==> r.1.users.value[username] == JObject(map["roles" := roles])
    ensures r.0.Ok? ==> forall u :: u in LoadUsers(st) ==> r.1.users.value[u] == LoadUsers(st)[u]
    ensures r.0.Ok? ==> r.0.value == JObject(map["username" := JString(username), "roles" := roles])
  {
    var users := LoadUsers(st);
    if username in users then (Err(ValueError(UserExists)), st)
    else
      (Ok(JObject(map["username" := JString(username), "roles" := roles])),
       st.(users := Some(users[username := JObject(map["roles" := roles])])))
  }

  // ---------------------------------------------------------------------
  // Calling a registered tool: `tool_fn(**args)`

  /** The handler's parameter names. */
  function Parameters(t: Tool): set<string> {
    match t
    case UpdateFile => {"path", "content", "overwrite"}
    case CreateUser => {"username", "roles"}
  }

  /** The parameters without a default value. */
  function RequiredParameters(t: Tool): set<string> {
    match t
    case UpdateFile => {"path", "content"}
    case CreateUser => {"username", "roles"}
  }

  /** Bind the argument dict to the handler's parameters and run it. Of
      several unexpected keys Python names the first in the dict's order;
      a `Json` object does not record that order, so the model names the
      least one and promises only that it is one of them. */
  function Run(t: Tool, args: Json, env: Env, st: State): (r: (Result<Json, HandlerError>, State))
    ensures r.0.Err? ==> r.1 == st
    ensures !args.JObject? ==> r.0 == Err(TypeError(NotAMapping))
    ensures args.JObject? && !(args.fields.Keys <= Parameters(t)) ==>
              r.0.Err? && r.0.error.TypeError? && r.0.error.problem.UnexpectedKeyword?
              && r.0.error.problem.name in args.fields.Keys - Parameters(t)
    ensures args.JObject? && args.fields.Keys <= Parameters(t) && !(RequiredParameters(t) <= args.fields.Keys) ==>
              r.0.Err? && r.0.error.TypeError? && r.0.error.problem.MissingArguments?
              && r.0.error.problem.names == RequiredParameters(t) - args.fields.Keys
    ensures r.0.Ok? ==> args.JObject? && RequiredParameters(t) <= args.fields.Keys <= Parameters(t)
  {
    if !args.JObject? then (Err(TypeError(NotAMapping)), st)
    else
      var f := args.fields;
      if f.Keys - Parameters(t) != {} then (Err(TypeError(UnexpectedKeyword(Least(f.Keys - Parameters(t))))), st)
      else if RequiredParameters(t) - f.Keys != {} then (Err(TypeError(MissingArguments(RequiredParameters(t) - f.Keys))), st)
      else
        match t
        case UpdateFile =>
          if !f["path"].JString? then (Err(UnvalidatedArgument("path")), st)
          else if !f["content"].JString? then (Err(UnvalidatedArgument("content")), st)
          else UpdateFileHandler(env, st, f["path"].s, f["content"].s, GetOr(f, "overwrite", JBool(false)))
        case CreateUser =>
          if !f["username"].JString? then (Err(UnvalidatedArgument("username")), st)
          else CreateUserHandler(st, f["username"].s, f["roles"])
  }

  /** A missing users file is an empty registry: the first user is the only
      entry afterwards. */
  lemma FirstUserInMissingFile(st: State, username: string, roles: Json)
    requires st.users.None?
    ensures CreateUserHandler(st, username, roles).0.Ok?
    ensures CreateUserHandler(st, username, roles).1.users == Some(map[username := JObject(map["roles" := roles])])
  {
    var r := CreateUserHandler(st, username, roles);
    assert r.1.users.value.Keys == {username};
  }

  /** Creating the same username twice: the second call fails with 'user
      exists' and leaves the registry as the first call made it. */
  lemma CreateUserTwice(st: State, username: string, roles1: Json, roles2: Json)
    requires CreateUserHandler(st, username, roles1).0.Ok?
    ensures var st1 := CreateUserHandler(st, username, roles1).1;
            CreateUserHandler(st1, username, roles2) == (Err(ValueError(UserExists)), st1)
            && st1.users.value[username] == JObject(map["roles" := roles1])
  {
  }

  // ---------------------------------------------------------------------
  // Proof helpers: the textual facts behind the worked examples, one lemma
  // each so that each literal computation is evaluated on its own

  lemma SiblingJoin()
    ensures Join(["..", "llm_workspace_x", "notes.txt"], "/") == "../llm_workspace_x/notes.txt"
  {
    JoinThree("..", "llm_workspace_x", "notes.txt", "/");
  }

  lemma SiblingFold()
    ensures Fold(["srv", "llm_workspace"], ["..", "llm_workspace_x", "notes.txt"], true)
            == ["srv", "llm_workspace_x", "notes.txt"]
  {
  }

  lemma SiblingRender()
    ensures "/" + Join(["srv", "llm_workspace_x", "notes.txt"], "/") == "/srv/llm_workspace_x/notes.txt"
  {
    JoinThree("srv", "llm_workspace_x", "notes.txt", "/");
  }

  lemma DefaultBaseText()
    ensures Join(["srv", "llm_workspace"], "/") == "srv/llm_workspace"
    ensures Render(1, ["srv", "llm_workspace"]) == "/srv/llm_workspace"
  {
    JoinTwo("srv", "llm_workspace", "/");
    assert Slashes(1) == "/";
  }

  lemma EscapeJoin()
    ensures Join(["..", "..", "etc", "passwd"], "/") == "../../etc/passwd"
  {
    JoinThree("..", "etc", "passwd", "/");
    assert ["..", "..", "etc", "passwd"][1..] == ["..", "etc", "passwd"];
  }

  lemma NulStrip()
    ensures LStrip("a\0b", '/') == "a\0b"
    ensures Join(["a\0b"], "/") == "a\0b"
    ensures '/' !in "a\0b"
  {
  }

  lemma NulFold()
    ensures Fold(["srv", "llm_workspace"], ["a\0b"], true) == ["srv", "llm_workspace", "a\0b"]
  {
  }

  lemma NulRender()
    ensures "/" + Join(["srv", "llm_workspace", "a\0b"], "/") == "/srv/llm_workspace/a\0b"
  {
    JoinThree("srv", "llm_workspace", "a\0b", "/");
  }

  lemma NulPrefix()
    ensures StartsWith("/srv/llm_workspace/a\0b", "/srv/llm_workspace")
    ensures '\0' in "/srv/llm_workspace/a\0b"
  {
    assert "/srv/llm_workspace/a\0b"[20] == '\0';
  }

  lemma EscapeFold()
    ensures Fold(["srv", "llm_workspace"], ["..", "..", "etc", "passwd"], true) == ["etc", "passwd"]
  {
  }

  lemma EscapeRender()
    ensures "/" + Join(["etc", "passwd"], "/") == "/etc/passwd"
  {
    JoinTwo("etc", "passwd", "/");
  }

  /** `sep.join` of two parts, stated over plain variables. */
  lemma JoinTwo(a: string, b: string, sep: string)
    ensures Join([a, b], sep) == a + sep + b
  {
    assert [a, b][1..] == [b];
  }

  /** `sep.join` of three parts, stated over plain variables. */
  lemma JoinThree(a: string, b: string, c: string, sep: string)
    ensures Join([a, b, c], sep) == a + sep + b + sep + c
  {
    assert [a, b, c][1..] == [b, c];
    JoinTwo(b, c, sep);
  }

  lemma EscapePrefix()
    ensures !StartsWith("/etc/passwd", "/srv/llm_workspace")
  {
    assert "/etc/passwd"[1] != "/srv/llm_workspace"[1];
  }

  lemma SiblingNulFree()
    ensures '\0' !in "/srv/llm_workspace_x/notes.txt"
  {
  }

  lemma SiblingPrefix()
    ensures StartsWith("/srv/llm_workspace_x/notes.txt", "/srv/llm_workspace")
  {
  }
}
